=== FILE: README.md ===
# Bulk URL scraper plugin, modelled in Dafny

This project models the core of the `bulk_url_scraper` plugin for the Stash
media server, and of the `StashInterface` client it calls.
The plugin picks every scene that carries a control tag (`0.Scrape` by
default) and runs one of three strategies over them:

- **URL scrape** (`__bulk_scrape`): scrape each scene's url. Copy the truthy
  fields back, optionally creating missing tags, performers and studios.
  Remember the hosts that have no scraper.
- **Metadata rescrape** (`__bulk_scrape_scene_url`): scrape each scene by its
  id with the scraper that the control tag names. Keep only the url found.
- **Performer from file name** (`__bulk_create_performer`): parse a
  performer name out of the file name. Find that performer in the catalog by
  name or alias, or create it, and attach it to the scene.

The URL scrape and the metadata rescrape throttle each request with `wait`.
The performer strategy sets up `last_request` too, but never waits and asks
no scraper. Two more tasks create and remove the control tag. `run`
dispatches on the task's mode. Each task wrapper reads its settings from the
user's `config` module and falls back to defaults for what it cannot read.

The server is an abstract state (`Remote.State`) holding:

- the tag, performer and studio stores;
- the log of scene updates the plugin sent;
- the counter that fresh ids come from.

Every remote call is a pure function on that state. The answers the plugin
cannot compute itself are parameters of the model:

- the scrape results;
- the pages of `findScenes`;
- the regular-expression match;
- the clock.

A strategy is a fold over the scene list that threads a `Batch.Run` record.
The record holds the server state, the count, the hosts with no scraper, the
computed pauses, the requests made and the performer catalog.

Modules, in dependency order:

- `Base`: `Option` and `Result`.
- `Text`: ASCII `lower`, `capitalize`, `split`, `join` and `strip`, and the
  plugin's title-casing rule.
- `Url`: the scheme and network location of `urlparse`.
- `Remote`: the server state.
- `Client`: the client's endpoint, reply classification, name lookups, paged
  finders and scraper helpers.
- `Batch`: the run record and the throttle.
- `UrlScrape`, `Rescrape` and `PerformerExtract`: the three strategies.
- `Plugin`: the configuration, the tag tasks, the task wrappers and the
  dispatch.
- `Scenarios`: concrete instances.

The code differs from a plain reading of its intent in a few places, and
the model follows the code:

- The performer strategy sends an update and counts the scene whenever the
  parsed name is not already attached, even when no performer id was found
  or created. The update then holds only the scene id
  (`PerformerExtract.PerformerStep`).
- The performer strategy's count is logged as "Created {count} performers",
  but it counts updated scenes.
- `findGalleries` takes a filter and, when it is truthy, puts it among the
  request variables as `gallery_filter`. Its query text declares and reads
  only `$studio_ids`, which is never set. The server therefore never reads
  the filter: `Client.FindGalleries` pages a server that takes no filter.
- A wrapper reads its settings one after the other inside one `try`. The
  first missing attribute, or a delay `int()` rejects, abandons the reads
  still to come. So a setting comes from the configuration only when every
  attribute read before it was present (`Plugin.ScrapeConfig`).
- `last_request` is set once, to the start time plus the delay, and never
  refreshed. A pause therefore happens only while the clock is strictly
  between `start + delay` and `start + 2 * delay` (`Batch.PauseWindow`, `Batch.PacedWindow`).

## Model

| member | source | states |
|---|---|---|
| Batch.Wait | py_plugins/bulk_url_scraper.py:30-35 | A pause happens exactly when `now` is after `last` by less than `delay`. It ends one second after `last + delay`, and lies between 2 and `delay` seconds. |
| Batch.Throttle | py_plugins/bulk_url_scraper.py:69-94 | A zero delay leaves the run untouched. Otherwise exactly one pause is recorded, and nothing else in the run changes. That pause is what `wait` gives at this throttle point against `last_request`, which stays at the start time plus the delay. It is bounded by the delay. A run whose pauses all follow that rule still does afterwards. |
| Batch.PacedWindow | py_plugins/bulk_url_scraper.py:30-35 | In a run whose pauses all follow `wait` against the never-refreshed `last_request`, a throttle point with a positive delay pauses exactly when its clock reading lies strictly between `start + delay` and `start + 2 * delay`. A negative delay never pauses. |
| Batch.PauseWindow | py_plugins/bulk_url_scraper.py:30-35 | Measured against `last_request`, which stays at `start + delay`, `wait` pauses with a positive delay exactly when `now` lies strictly between `start + delay` and `start + 2 * delay`. With a negative delay it never pauses. |
| Text.TitleCase | py_plugins/bulk_url_scraper.py:126 | The naming rule for created entities, word by word on single spaces: each word is capitalized. The result is as long as the name. |
| Text.TitleCaseWords | py_plugins/bulk_url_scraper.py:126 | Splitting the title-cased name on spaces gives the capitalized words of the input. The number of words is preserved. |
| Text.TitleCaseIsJoin | py_plugins/bulk_url_scraper.py:126 | The recursive title-casing equals joining, with spaces, the capitalized words of the name split on spaces. |
| Text.TitleCaseIdempotent | py_plugins/bulk_url_scraper.py:140 | Title-casing a title-cased name changes nothing. |
| Text.TitleCaseSameLetters | py_plugins/bulk_url_scraper.py:282 | Title-casing only changes letter case: the lower-cased result equals the lower-cased input, and the length is kept. |
| Text.SplitJoin | py_plugins/bulk_url_scraper.py:126 | Splitting a join of separator-free words on the separator gives the words back. |
| Text.JoinSplit | py_plugins/bulk_url_scraper.py:126 | Joining the parts of a split with the separator gives the original text. |
| Text.AfterSuffix | py_plugins/bulk_url_scraper.py:195 | The text after the last separator holds no separator and is a suffix of the input. When the input has a separator, that separator comes right before it. |
| Text.StripUnchanged | py_plugins/bulk_url_scraper.py:276 | Stripping text that neither starts nor ends with white space gives it back unchanged. |
| Url.Parse | py_plugins/bulk_url_scraper.py:155 | The scheme is the lower-cased text before the first `:` when that text is a valid scheme. The netloc follows a leading `//` and runs to the first `/`, `?` or `#`. The netloc holds no `/`, `?` or `#`, and a non-empty netloc means the url contains `//`. |
| Url.Netloc | py_plugins/bulk_url_scraper.py:92 | The host the loop checks against the hosts without a scraper holds no `/`, `?` or `#`. It is non-empty only when the url contains `//`. |
| Url.Authority | py_plugins/bulk_url_scraper.py:92 | The network location is the longest prefix free of `/`, `?` and `#`. |
| Url.ParseWithScheme | py_plugins/bulk_url_scraper.py:155 | A url that starts with a lower-case scheme and `://` parses into that scheme and the authority prefix of the rest. |
| Url.ParseBuilt | py_plugins/bulk_url_scraper.py:155 | A url built from a lower-case scheme, a clean host and a path parses back into that scheme and host. The studio url taken from it is `scheme://host`. |
| Url.NetlocOfHttps | py_plugins/stash_interface.py:565 | The netloc of `'https://' + u` is the authority prefix of `u`, and a bare host is its own netloc. |
| Remote.Create | py_plugins/stash_interface.py:103-116 | The server appends one entity under the counter's id and returns that id. No other store changes. Fresh ids stay fresh. |
| Remote.UpdateScene | py_plugins/stash_interface.py:192-202 | The server receives exactly one more update, the payload given, after all earlier ones. No store and no id counter changes. |
| Remote.DestroyTag | py_plugins/stash_interface.py:118-128 | The tag id leaves the tag store, every other tag stays, and nothing else changes. |
| Client.DialHost | py_plugins/stash_interface.py:29 | The host dialled never contains `0.0.0.0`. A host without it is kept as given. |
| Client.Endpoint | py_plugins/stash_interface.py:20-32 | The endpoint starts with the scheme, `://`, the dialled host and `:`, and ends with `/graphql`. |
| Client.EndpointNetloc | py_plugins/stash_interface.py:20-32 | For a valid lower-case scheme and a clean host, the network location read back from the endpoint is the dialled host, a colon and the port. |
| Client.EndpointKeepsPort | py_plugins/stash_interface.py:20-32 | The port read back from the endpoint is the configured port. |
| Client.Classify | py_plugins/stash_interface.py:42-55 | 401 means exit and any status other than 200 or 401 means a connection error. A 200 with a non-empty error list raises its first error. A 200 with non-empty data returns it, and otherwise nothing. Each case holds in both directions. |
| Client.FirstIndex | py_plugins/stash_interface.py:98-101 | The position returned is the first one satisfying the test. `None` means no position does. |
| Client.FindTagIdWithName | py_plugins/stash_interface.py:86-101 | It returns the id of the first tag whose name is exactly the given one, and `None` exactly when no tag has that name. |
| Client.FindMovieByName | py_plugins/stash_interface.py:544-552 | It returns the first movie whose name is exactly the given one, and `None` exactly when there is none. |
| Client.Fetch | py_plugins/stash_interface.py:454-459 | A result is the concatenation of consecutive pages from the first one asked. Every page but the last was full and the last was not. |
| Client.FetchWholeCatalog | py_plugins/stash_interface.py:454-459 | Reading a catalog served in pages of `perPage` returns the whole catalog, in order, when the recursion budget suffices. |
| Client.FindScenesByTags | py_plugins/stash_interface.py:425-461 | The scenes are the pages of 1000 the server gives for the tag ids, from page 1, every page but the last full. |
| Client.FindScenesByPathRegex | py_plugins/stash_interface.py:269-277 | The scenes are the pages of 100 the server gives for the regex, from page 1, every page but the last full. |
| Client.FindGalleriesByTags | py_plugins/stash_interface.py:311-317 | The galleries are the pages of 100 the server gives for the tag ids, from page 1, every page but the last full. |
| Client.FindGalleries | py_plugins/stash_interface.py:322-356 | The galleries are the pages of `per_page` (100) from page 1, every page but the last full. The filter is sent as `gallery_filter` when truthy, but the query declares only `$studio_ids`, so the pages do not depend on it. |
| Client.FindImages | py_plugins/stash_interface.py:399-404 | The images are the pages of `per_page` (1000) the server gives for the optional filter, from page 1, every page but the last full. |
| Client.SceneScraperId | py_plugins/stash_interface.py:495 | A requested scraper id is used as given. Without one, the default `ThePornDB` is used. |
| Client.UrlCapable | py_plugins/stash_interface.py:563-564 | A scraper is kept exactly when its supported scrapes include `URL`. The result is no longer than the input, and a single scraper is kept or dropped on its own. |
| Client.UrlCapableAppend | py_plugins/stash_interface.py:563-564 | Filtering a concatenation filters each part and keeps their order. |
| Client.SceneScraperUrls | py_plugins/stash_interface.py:559-565 | There is one host per url of the URL-capable scrapers, in order. Each is the authority of its url. |
| UrlScrape.IfTruthy | py_plugins/bulk_url_scraper.py:110-117 | A text key is present exactly when the scraped value is non-empty, and then carries it. |
| UrlScrape.IfNonEmpty | py_plugins/bulk_url_scraper.py:130-131 | An id-list key is present exactly when the list is non-empty, and then carries it. |
| UrlScrape.HasData | py_plugins/bulk_url_scraper.py:102 | A scrape result has no data exactly when every value is empty: no text, no tags, no performers and no studio. |
| UrlScrape.TextKeys | py_plugins/bulk_url_scraper.py:107-117 | The update starts with the scene id. Title, details, date and cover image are present exactly when the scraped value is non-empty, and then carry it. |
| UrlScrape.Resolve | py_plugins/bulk_url_scraper.py:118-143 | The loop over the scraped tags or performers. A stored id passes through. Otherwise, with creation on and a non-empty name, the title-cased name is created and its new id collected. Any other item is dropped. At most one id is collected per item, the id counter never goes back, and with creation off the server is untouched. |
| UrlScrape.ResolveKeepsRest | py_plugins/bulk_url_scraper.py:118-129 | Resolving tags or performers touches no other store and sends no update. It draws one fresh id per created name. |
| UrlScrape.ResolveGrowsStore | py_plugins/bulk_url_scraper.py:118-143 | The store grows by exactly the title-cased names without a stored id, under consecutive fresh ids, and only when creation is on and the name is non-empty. |
| UrlScrape.ResolveIds | py_plugins/bulk_url_scraper.py:118-143 | There is one collected id per stored id and per created name. Every stored id is kept with its multiplicity, and any other id is a fresh one drawn during the call. |
| UrlScrape.ResolveCollected | py_plugins/bulk_url_scraper.py:118-143 | The ids collected are exactly the server-free list `Collected` from the counter on. Each stored id keeps its place, and each created name takes the next fresh id. |
| UrlScrape.CollectedCounts | py_plugins/bulk_url_scraper.py:118-143 | As a multiset, the server-free list is exactly the stored ids plus one fresh id per created name, consecutive from the first fresh id. |
| UrlScrape.DrawnBounds | py_plugins/bulk_url_scraper.py:118-143 | A list drawn that way has one entry per stored id and per created name. It keeps every stored id with its multiplicity and holds no id outside the stored ones and the fresh block. |
| UrlScrape.ResolveDrawn | py_plugins/bulk_url_scraper.py:118-143 | The collected ids are exactly `Collected`. As a multiset they are the stored ids plus the block of fresh ids from the counter, one per created name, so a repeated stored id never stands in for a created one. |
| UrlScrape.ResolveWithoutCreation | py_plugins/bulk_url_scraper.py:121-124 | With creation off the server is untouched and exactly the stored ids are collected, in order. |
| UrlScrape.ResolveList | py_plugins/bulk_url_scraper.py:118-143 | Resolving a scraped list grows only its own store, by the title-cased created names under fresh ids. It collects exactly the server-free list `Collected`, one id per stored id and per created name, in order. It leaves the server alone when creation is off. |
| UrlScrape.ResolveStudio | py_plugins/bulk_url_scraper.py:147-157 | A stored studio id is used as is. A missing one is created only when creation is on, title-cased, with the url `scheme://netloc` of the scene url. |
| UrlScrape.BuildPayload | py_plugins/bulk_url_scraper.py:107-157 | The payload carries the scene id. Title, details, date and cover image are present exactly when the scraped value is truthy. The tag list is the server-free `Collected` list of the tags from the counter, and the performer list is the same for the performers from the first id after the created tags. Each is sent only when non-empty. A stored studio id is copied. A missing studio is created, with the next fresh id after the created tags and performers, exactly when creation is on, and that id is sent. The tag store grows by exactly the created tag names under fresh ids, and creating entities is the only change to the server. |
| UrlScrape.BuildPayloadIds | py_plugins/bulk_url_scraper.py:118-143 | The id lists `BuildPayload` sends are the server-free `Collected` lists. Any such list, when sent, is as a multiset exactly the stored ids plus a block of consecutive fresh ids, one per created name. The tags' block starts at the counter and the performers' block right after it. |
| UrlScrape.BuildPayloadKeeps | py_plugins/bulk_url_scraper.py:118-157 | Building the update leaves a store unchanged when its creation switch is off. |
| UrlScrape.ScrapeStep | py_plugins/bulk_url_scraper.py:89-162 | A scene without a url, or whose host has no scraper, is skipped untouched. Otherwise it is throttled and requested. A null result adds its host to the missing hosts. An all-empty result changes nothing. A result with data is counted, and the server then holds exactly the entities `BuildPayload` creates plus one more update, the payload built from it. A store whose creation switch is off is unchanged. Pacing is kept. |
| UrlScrape.ScrapeScenes | py_plugins/bulk_url_scraper.py:68-164 | The count equals the updates sent and is at most the number of scenes. The missing hosts only grow and never repeat. No request goes to a host known to be missing at the start. There is one pause per request when the delay is non-zero, and pacing is kept. Updates carry scene ids only. Stores whose creation switch is off are unchanged, and the others only grow. |
| UrlScrape.ScrapeStepPlan | py_plugins/bulk_url_scraper.py:89-103 | One step marks the hosts and asks for the urls that the server-free decision `PlanStep` picks. It updates, and counts, the scene `PlanStep` picks, if any. A request that answers null has its host marked. |
| UrlScrape.ScrapeScenesPlan | py_plugins/bulk_url_scraper.py:83-162 | The loop marks exactly the hosts and asks for exactly the urls, in order, of the server-free reference `Plan`. The scenes its updates are for are exactly the scenes `Plan` updates, in order: those not passed over whose scrape has data. The count is their number. |
| UrlScrape.MarkedHostNotAskedAgain | py_plugins/bulk_url_scraper.py:91-100 | Once a request of the run answers null, no later request of the run goes to its host. |
| Rescrape.ScraperFor | py_plugins/bulk_url_scraper.py:194-198 | A control tag without `_` asks the default scraper. |
| Rescrape.ScraperIsTagSuffix | py_plugins/bulk_url_scraper.py:194-195 | A control tag with `_` names a scraper id that holds no `_`, and the tag ends with `_` followed by that id. |
| Rescrape.UrlPayload | py_plugins/bulk_url_scraper.py:205-209 | The update carries only the scene id and the url. |
| Rescrape.RescrapeStep | py_plugins/bulk_url_scraper.py:185-215 | Every scene is throttled and requested. A null answer, and only that, aborts the run. An empty url is skipped. Otherwise an update with the id and url is sent and counted. No store changes, and pacing is kept. |
| Rescrape.RescrapeScenes | py_plugins/bulk_url_scraper.py:166-217 | The run fails exactly when some scene's scrape answers null. Otherwise there is one pause per scene when the delay is non-zero, and one request per scene. The count equals the updates, at most the number of scenes. Each update carries only a scene id and a non-empty url. No store changes, and pacing is kept. |
| Rescrape.RescrapeScenesExact | py_plugins/bulk_url_scraper.py:180-215 | A run that finishes sends exactly the updates of the server-free `Rescraped`, in order: one id-and-url update per scene whose scrape found a non-empty url. The count is their number. |
| PerformerExtract.Basename | py_plugins/bulk_url_scraper.py:245 | The basename holds no `/` and is a suffix of the path. A path without `/` is its own basename. Otherwise the character right before the basename is a `/`. |
| PerformerExtract.ReplaceChar | py_plugins/bulk_url_scraper.py:276 | Every `a` becomes `b` and no other character changes. |
| PerformerExtract.AliasTokensOfList | py_plugins/bulk_url_scraper.py:276 | An alias list written as comma-separated names gives back exactly those names, stripped and lower-cased. |
| PerformerExtract.ListedAliasHits | py_plugins/bulk_url_scraper.py:276-277 | Every name in a comma-separated alias list, once stripped, finds the catalog entry by alias. |
| PerformerExtract.MatchPerformer | py_plugins/bulk_url_scraper.py:272-278 | It returns the id of the first catalog entry hit by name or alias, ignoring case, and `None` exactly when no entry is hit. |
| PerformerExtract.MatchAppended | py_plugins/bulk_url_scraper.py:270-287 | A performer appended after entries that all miss the name is the one the search finds. |
| PerformerExtract.HitIgnoresTitleCase | py_plugins/bulk_url_scraper.py:282-287 | A title-cased name hits exactly the catalog entries that the parsed name hits. |
| PerformerExtract.Parsed | py_plugins/bulk_url_scraper.py:240-253 | A name is parsed exactly when the scene has a non-empty path whose basename the pattern matches. The name is the groups joined by spaces, so splitting it on spaces gives back the groups when they hold no space. |
| PerformerExtract.Counted | py_plugins/bulk_url_scraper.py:240-270 | A scene reaches the update only when it has a non-empty path whose basename the pattern matches, and then no attached performer has the parsed name up to letter case. |
| PerformerExtract.PerformerPayload | py_plugins/bulk_url_scraper.py:258-291 | The update carries the scene id, plus the performer ids exactly when there are any. |
| PerformerExtract.PerformerStep | py_plugins/bulk_url_scraper.py:240-297 | No path, no match, an empty name or an already attached name leaves the run untouched. Otherwise exactly one update is sent and counted. With a hit it carries the hit's id. With no hit and creation on, the server is exactly the creation of the title-cased performer under the next id, then the update carrying that id. The id counter advances by one, and the performer joins the catalog. With no hit and creation off it carries only the scene id. The catalog keeps mirroring the performer store. |
| PerformerExtract.SecondSightingMatches | py_plugins/bulk_url_scraper.py:281-287 | After a performer is created for a name, a later scene with the same name finds it instead of creating it again. |
| PerformerExtract.PerformerScenes | py_plugins/bulk_url_scraper.py:219-299 | The count equals the updates, at most the number of scenes. Each update carries a scene id and at most one performer id. A created performer is never one the catalog already had by name or alias. With creation off the catalog is unchanged. The catalog mirrors the store. |
| PerformerExtract.PerformerScenesUpdated | py_plugins/bulk_url_scraper.py:235-297 | The scenes the loop updates, read off the updates sent, are exactly the `Counted` scenes, each once, in order. The count is their number. |
| PerformerExtract.CreatedNamesDistinct | py_plugins/bulk_url_scraper.py:272-287 | No two performers created in one run share a name up to letter case. |
| PerformerExtract.CreatedNamesNonEmpty | py_plugins/bulk_url_scraper.py:256-282 | Every performer a run creates has a non-empty name. |
| Plugin.Defaults | py_plugins/bulk_url_scraper.py:302 | The parameter defaults of the wrappers: no creation and a delay of 5, with the control tag `0.Scrape`. |
| Plugin.ControlTag | py_plugins/bulk_url_scraper.py:13-16 | The control tag is the configured one, or `0.Scrape` when the attribute is missing. |
| Plugin.ScrapeConfig | py_plugins/bulk_url_scraper.py:302-313 | The studio switch is on exactly when configured on. The tag switch is on exactly when the studio switch is present and the tag switch is configured on. The performer switch also needs both earlier switches present. The delay is the configured one when all three switches are present and the delay is an integer, and 5 otherwise. |
| Plugin.RescrapeConfig | py_plugins/bulk_url_scraper.py:334-341 | The delay is the configured one when it is an integer, and 5 otherwise. |
| Plugin.PerformerConfig | py_plugins/bulk_url_scraper.py:360-369 | The performer switch is on exactly when configured on. The configured pattern is used exactly when the switch and the pattern are present. The delay is configured only when both were read before it. |
| Plugin.ShippedIsDefault | py_plugins/config.py:1-15 | The shipped configuration module reads as the defaults in all three wrappers. |
| Plugin.MissingStudioSwitch | py_plugins/bulk_url_scraper.py:302-313 | Without a studio switch every setting of the URL scrape keeps its default, whatever the later attributes say. |
| Plugin.AddTag | py_plugins/bulk_url_scraper.py:390-397 | Afterwards the control tag exists. An existing one leaves the server unchanged. A missing one is created under a fresh id. |
| Plugin.AddTagIdempotent | py_plugins/bulk_url_scraper.py:390-397 | Creating the control tag twice creates it once. |
| Plugin.RemoveTag | py_plugins/bulk_url_scraper.py:400-408 | A missing control tag leaves the server unchanged. Otherwise the first tag of that name is destroyed, with every tag sharing its id, and nothing else. |
| Plugin.RemoveUndoesAdd | py_plugins/bulk_url_scraper.py:390-408 | Creating a missing control tag and then removing it gives back the tag store that was there before. |
| Plugin.TaggedScenes | py_plugins/bulk_url_scraper.py:323-328 | There are no scenes when the control tag is missing. Otherwise they are the paged scenes filtered by that tag. |
| Plugin.BulkScrape | py_plugins/bulk_url_scraper.py:302-331 | A missing control tag, and only that, stops with the tag error. On success, the count is at most the tagged scenes, every update is for a tagged scene, the missing hosts are distinct, and every pause is the one `wait` computes. A store whose creation switch is off is unchanged. |
| Plugin.BulkRescrape | py_plugins/bulk_url_scraper.py:334-357 | A missing control tag stops with the tag error. A null scrape of a tagged scene, and only that, stops with the no-data error. On success, the updates sent are exactly those of `Rescraped` over the tagged scenes, in order, and the count is their number. No store changes, and every pause is the one `wait` computes. |
| Plugin.BulkCreatePerformer | py_plugins/bulk_url_scraper.py:360-387 | A missing control tag stops with the tag error. On success, exactly the `Counted` tagged scenes are updated, in order, and counted. The catalog listed at the start plus the created performers equals the performer store. No created performer was already findable. Tags and studios are untouched. No pause is taken and no scraper is asked. |
| Plugin.BulkScrapePlan | py_plugins/bulk_url_scraper.py:302-331 | Over a whole task, the URL scrape asks for exactly the urls of `Plan` started with no host marked. It updates exactly the scenes `Plan` finds data for, in order, and counts them. |
| Plugin.BulkScrapeNotAskedAgain | py_plugins/bulk_url_scraper.py:302-331 | Over a whole task, once a host's scrape answered null, no later request goes to that host. |
| Plugin.Dispatch | py_plugins/bulk_url_scraper.py:41-65 | The modes `""` and `scrape` run the URL scrape, `scrapeurl` the rescrape and `createperformer` the performer task, each with the settings its wrapper reads; `create` and `remove` create and remove the configured control tag. An unknown mode does nothing and succeeds. Only the three strategy modes can fail, and updates and performers are only ever added to. |
| Plugin.CreateThenRemove | py_plugins/bulk_url_scraper.py:58-63 | Running the `create` mode and then the `remove` mode leaves the tag store as it was when the configured tag was missing. |
| Scenarios.TitleCaseFullName | py_plugins/bulk_url_scraper.py:282 | A first and a last name without spaces are title-cased word by word, as `john smith` becomes `John Smith`. |
| Scenarios.CapitalizeExamples | py_plugins/bulk_url_scraper.py:282 | `capitalize` turns `john` into `John` and `sMITH` into `Smith`. |
| Scenarios.DefaultTagScraper | py_plugins/bulk_url_scraper.py:194-198 | The default control tag `0.Scrape` asks the `ThePornDB` scraper. |
| Scenarios.SuffixTagScraper | py_plugins/bulk_url_scraper.py:194-198 | The control tag `0.Scrape_StashDB` asks the `StashDB` scraper. |

## Left out

- HTTP transport, GraphQL query texts, cookies and headers are not modelled; the remote calls are functions on the abstract server state. The same goes for JSON on stdin and stdout, the module-level `main()` call, and logging and progress output.
- `time.time` and `time.sleep`: the clock is a parameter that gives whole seconds at each throttle point. The float-to-int truncation inside `wait` is not modelled. A pause is recorded rather than slept.
- Python's `re`: the performer pattern is a parameter that returns the groups of the first match of the basename. A group that did not take part in the match (`None` in Python, which makes `' '.join` raise) is not modelled.
- `urllib.parse.urlparse` is reduced to its scheme and netloc. Surrounding whitespace, IPv6 brackets and the other components are left out.
- Url.Parse: does not delete the tab, carriage-return and line-feed characters that `urlsplit` removes from anywhere in a url (Python 3.9.5 and the matching security releases of earlier versions). The plugin pins no Python version, and the scraped urls it parses come from the server. A url with such a character inside its host gets a different netloc in the model: a different entry among the hosts without a scraper, and a different studio url.
- Configuration values are taken as already coerced: a switch is its truth value and a delay is an integer or rejected. Python's truthiness and `int()` on arbitrary values are not modelled. The configured performer pattern is returned by `Plugin.PerformerConfig`, but the match itself is the `search` parameter.
- Thin wrappers that only forward one call: `scan_for_new_files`, `getSceneById`, `findRandomSceneId`, `updateGallery`, `updateImage`, `updateImageStudio`, `listPerformers` (the catalog is the performer store) and `createTagWithName`/`createPerformerByName`/`createStudio`, which are all `Remote.Create`.
- Unicode: `lower`, `capitalize` and `strip` are ASCII only.
- Client.Fetch: the recursion depth of the paged finders is bounded by a fuel argument. Running out of fuel stands for Python's recursion limit and is reported as `PageLimit`; the actual limit is not modelled.
- UrlScrape.ResolveIds: it states the count and the bounds of the collected ids; the exact list, and its multiset, are stated by `UrlScrape.ResolveDrawn`.
- UrlScrape.ScrapeScenes: which scenes are updated is stated by `UrlScrape.ScrapeScenesPlan`. The entities created are stated step by step by `UrlScrape.ScrapeStep`, whose data case is `BuildPayload` followed by `UpdateScene`. No closed form over the whole loop gives the created entities or the full payloads.
- Rescrape.RescrapeScenes: the exact updates are stated by `Rescrape.RescrapeScenesExact`, not by the loop's own contract.
- PerformerExtract.PerformerScenes: which scenes are updated is stated by `PerformerExtract.PerformerScenesUpdated`, not by the loop's own contract. The performer ids each update carries are given step by step by `PerformerExtract.PerformerStep`.
- Plugin.Dispatch: `sys.exit` for a missing control tag and raised exceptions (a null rescrape result, the recursion limit) are all `Err` results. Whatever the server received before the failure is not returned.
- Which fields of a server reply feed each query (`allTags`, `findScenes`, `scrapeSceneURL`, ...) is not modelled. `Client.Classify` models the reply handling of `__callGraphQL` on its own; no modelled call goes through it.
- Remote calls never fail inside the strategies. In the source, a 401 reply (`sys.exit`), a GraphQL error or a `ConnectionError` from any scrape, create or update aborts the run partway, keeping what the server already received (stash_interface.py:42-55). The model has no such failure.

=== FILE: base.dfy ===
/** Small failure-compatible wrappers shared by every module of the model. */
module Base {

  /** An optional value: `None` stands for Python's `None` and for a key that
      is absent from a dictionary. */
  datatype Option<+T> = None | Some(value: T) {

    /** The wrapped value, or `default` when there is none. */
    function GetOr(default: T): T {
      match this
      case Some(v) => v
      case None => default
    }
  }

  /** Either the value a run produced or the reason it was aborted. */
  datatype Result<+T, +E> = Ok(value: T) | Err(error: E)

  /** Concatenation is associative; stated for the solver, which does not
      always find it on its own. */
  lemma AppendAssoc<T>(a: seq<T>, b: seq<T>, c: seq<T>)
    ensures (a + b) + c == a + (b + c)
  {
  }
}

=== FILE: batch.dfy ===
/** What the three batch strategies share: the record a run threads through
    its fold over the scenes, the ways a run can stop early, and the
    request throttle (`wait` and the `last_request` timestamp). */
module Batch {
  import opened Remote

  /** Wall-clock readings in whole seconds: `start` is read when a strategy
      begins, `at(k)` at its `k`-th throttle point. */
  datatype Clock = Clock(start: int, at: nat -> int)

  /** Why a run stops before its loop is done. */
  datatype Failure =
    | TagMissing   // the control tag does not exist: `sys.exit`
    | NoSceneData  // `scrapeScene` answered null and `.values()` raised
    | PageLimit    // a paged finder recursed past the recursion limit

  /** The state a strategy threads through its loop: the server, the number
      of scenes counted as done, the hosts known to have no scraper, the
      pause computed at every throttle point, the scrape requests made (url
      or scraper id), and the in-memory performer catalog. */
  datatype Run = Run(
    state: State,
    count: nat,
    missing: seq<string>,
    sleeps: seq<nat>,
    requests: seq<string>,
    catalog: seq<Entity>)

  /** The run a strategy starts from. */
  function Begin(s: State, catalog: seq<Entity>): (r: Run)
    ensures r.state == s && r.count == 0 && r.catalog == catalog
    ensures r.missing == [] && r.sleeps == [] && r.requests == []
  {
    Run(s, 0, [], [], [], catalog)
  }

  /** `wait(delay, time_last, time_now)`: the seconds to sleep so that the
      next request starts one second after `last + delay`, or 0 when `now`
      is not after `last` or the delay has already passed. */
  function Wait(delay: int, last: int, now: int): (pause: nat)
    ensures pause > 0 <==> last < now && now - last < delay
    ensures pause > 0 ==> now + pause == last + delay + 1
    ensures pause > 0 ==> 2 <= pause <= delay
  {
    if now > last && now - last < delay then delay - (now - last) + 1 else 0
  }

  /** `last_request`: the start time plus the delay when the delay is
      positive, `-1` otherwise. The strategies never refresh it. */
  function LastRequest(delay: int, start: int): int {
    if delay > 0 then start + delay else -1
  }

  /** Every recorded pause is the one `wait` computes at its throttle point
      against the `last_request` set once at the start. */
  predicate Paced(delay: int, clock: Clock, sleeps: seq<nat>) {
    forall k :: 0 <= k < |sleeps| ==> sleeps[k] == Wait(delay, LastRequest(delay, clock.start), clock.at(k))
  }

  /** `if delay: wait(delay, last_request, time.time())`: a non-zero delay
      records one more throttle point and its pause; nothing else changes. */
  function Throttle(run: Run, delay: int, clock: Clock): (r: Run)
    ensures delay == 0 ==> r == run
    ensures delay != 0 ==> |r.sleeps| == |run.sleeps| + 1 && r.sleeps[..|run.sleeps|] == run.sleeps
    ensures delay != 0 ==>
      r.sleeps[|run.sleeps|] == Wait(delay, LastRequest(delay, clock.start), clock.at(|run.sleeps|))
    ensures forall k :: |run.sleeps| <= k < |r.sleeps| ==> r.sleeps[k] <= if delay > 0 then delay else 0
    ensures Paced(delay, clock, run.sleeps) ==> Paced(delay, clock, r.sleeps)
    ensures r.(sleeps := run.sleeps) == run
  {
    if delay == 0 then run
    else
      var pause := Wait(delay, LastRequest(delay, clock.start), clock.at(|run.sleeps|));
      run.(sleeps := run.sleeps + [pause])
  }

  /** Because `last_request` stays at `start + delay`, a throttle point
      pauses only while the clock is strictly between `start + delay` and
      `start + 2 * delay`; a negative delay never pauses. */
  lemma PauseWindow(delay: int, start: int, now: int)
    ensures delay > 0 ==>
      (Wait(delay, LastRequest(delay, start), now) > 0 <==> start + delay < now < start + 2 * delay)
    ensures delay < 0 ==> Wait(delay, LastRequest(delay, start), now) == 0
  {
  }

  /** In a paced run with a positive delay, the `k`-th throttle point
      sleeps exactly when its clock reading falls strictly between
      `start + delay` and `start + 2 * delay`; with a negative delay no
      throttle point sleeps. */
  lemma PacedWindow(delay: int, clock: Clock, sleeps: seq<nat>, k: nat)
    requires Paced(delay, clock, sleeps)
    requires k < |sleeps|
    ensures delay > 0 ==>
      (sleeps[k] > 0 <==> clock.start + delay < clock.at(k) < clock.start + 2 * delay)
    ensures delay < 0 ==> sleeps[k] == 0
  {
    PauseWindow(delay, clock.start, clock.at(k));
  }
}

=== FILE: client.dfy ===
/** The logic of the GraphQL client that is not transport: the endpoint it
    talks to, how it classifies a reply, first-match lookups by name, the
    "fetch the next page while this one is full" accumulation shared by every
    paged finder, and the list of hosts the scene scrapers accept. */
module Client {
  import opened Base
  import opened Text
  import opened Url
  import opened Remote

  // ---------------------------------------------------------------------
  // Endpoint
  // ---------------------------------------------------------------------

  /** The `server_connection` fields the client reads. */
  datatype Connection = Connection(scheme: string, host: string, port: nat)

  const Wildcard := "0.0.0.0"

  /** The host the client dials: a host naming the all-interfaces address is
      replaced by `localhost`, any other host is kept. */
  function DialHost(host: string): (h: string)
    ensures !Contains(h, Wildcard)
    ensures !Contains(host, Wildcard) ==> h == host
  {
    assert !Contains("localhost", Wildcard) by {
      if Contains("localhost", Wildcard) {
        ContainsFirstChar("localhost", Wildcard);
      }
    }
    if Contains(host, Wildcard) then "localhost" else host
  }

  /** `scheme + "://" + host + ":" + str(port) + "/graphql"`. */
  function Endpoint(c: Connection): (url: string)
    ensures StartsWith(url, c.scheme + "://" + DialHost(c.host) + ":")
    ensures EndsWith(url, "/graphql")
  {
    c.scheme + "://" + DialHost(c.host) + ":" + NatToDecimal(c.port) + "/graphql"
  }

  /** Reads the port back out of an endpoint: the digits between the last
      `:` and the trailing `/graphql`. */
  function EndpointPort(url: string): Option<nat> {
    if !EndsWith(url, "/graphql") then None
    else
      var digits := After(url[..|url| - 8], ':');
      if IsDigits(digits) then Some(DecimalValue(digits)) else None
  }

  /** The endpoint carries the configured port, whatever the host. */
  lemma EndpointKeepsPort(c: Connection)
    ensures EndpointPort(Endpoint(c)) == Some(c.port)
  {
    var d := NatToDecimal(c.port);
    var head := c.scheme + "://" + DialHost(c.host);
    var url := Endpoint(c);
    assert url == head + [':'] + d + "/graphql";
    assert url[..|url| - 8] == head + [':'] + d;
    assert ':' !in d;
    AfterAppend(head, ':', d);
    DecimalRoundTrip(c.port);
  }

  /** With a valid lower-case scheme and a host free of `/`, `?` and `#`,
      the network location `urlparse` reads from the endpoint is the dialled
      host, a colon and the port: the `0.0.0.0` rewrite reaches the url. */
  lemma EndpointNetloc(c: Connection)
    requires IsScheme(c.scheme) && Lower(c.scheme) == c.scheme
    requires forall k :: 0 <= k < |c.host| ==> !EndsAuthority(c.host[k])
    ensures Netloc(Endpoint(c)) == DialHost(c.host) + ":" + NatToDecimal(c.port)
  {
    var h := DialHost(c.host) + [':'] + NatToDecimal(c.port);
    HostPortAuthority(c);
    assert Endpoint(c) == c.scheme + "://" + h + "/graphql";
    ParseBuilt(c.scheme, h, "/graphql");
  }

  /** The dialled host, a colon and the port hold no `/`, `?` or `#`. */
  lemma HostPortAuthority(c: Connection)
    requires forall k :: 0 <= k < |c.host| ==> !EndsAuthority(c.host[k])
    ensures var h := DialHost(c.host) + [':'] + NatToDecimal(c.port);
      forall k :: 0 <= k < |h| ==> !EndsAuthority(h[k])
  {
    var d := NatToDecimal(c.port);
    var h := DialHost(c.host) + [':'] + d;
    assert DialHost(c.host) == "localhost" || DialHost(c.host) == c.host;
    forall k | 0 <= k < |h| ensures !EndsAuthority(h[k]) {
      if k < |DialHost(c.host)| {
        assert h[k] == DialHost(c.host)[k];
      } else if k > |DialHost(c.host)| {
        assert h[k] == d[k - |DialHost(c.host)| - 1];
      }
    }
  }

  // ---------------------------------------------------------------------
  // Reply classification
  // ---------------------------------------------------------------------

  /** The `error` object of a reply, present when truthy. */
  datatype ErrorObject = ErrorObject(errors: seq<string>)

  /** An HTTP reply: status code, `error` object and `data` object (`None`
      when absent or null). */
  datatype Response<D> = Response(status: int, error: Option<ErrorObject>, data: Option<map<string, D>>)

  /** What `__callGraphQL` does with a reply: return the data, return `None`,
      raise a GraphQL error, exit for a rejected session, or raise
      `ConnectionError`. */
  datatype Reply<D> =
    | Data(fields: map<string, D>)
    | NoData
    | GraphQLError(message: string)
    | Unauthorized
    | ConnectionFailed(status: int)

  /** An error object raises only when its `errors` list has an entry. */
  predicate Raises<D>(r: Response<D>) {
    r.error.Some? && |r.error.value.errors| > 0
  }

  function Classify<D>(r: Response<D>): (reply: Reply<D>)
    ensures reply.Unauthorized? <==> r.status == 401
    ensures reply.ConnectionFailed? <==> r.status != 200 && r.status != 401
    ensures reply.ConnectionFailed? ==> reply.status == r.status
    ensures reply.GraphQLError? <==> r.status == 200 && Raises(r)
    ensures reply.GraphQLError? ==> reply.message == r.error.value.errors[0]
    ensures reply.Data? <==> r.status == 200 && !Raises(r) && r.data.Some? && |r.data.value| > 0
    ensures reply.Data? ==> reply.fields == r.data.value
  {
    if r.status == 200 then
      if Raises(r) then GraphQLError(r.error.value.errors[0])
      else if r.data.Some? && |r.data.value| > 0 then Data(r.data.value)
      else NoData
    else if r.status == 401 then Unauthorized
    else ConnectionFailed(r.status)
  }

  // ---------------------------------------------------------------------
  // First match by name
  // ---------------------------------------------------------------------

  /** The position of the first element satisfying `p`, scanning in order. */
  function FirstIndex<T>(xs: seq<T>, p: T -> bool): (r: Option<nat>)
    ensures r.Some? ==> r.value < |xs| && p(xs[r.value])
    ensures r.Some? ==> forall j :: 0 <= j < r.value ==> !p(xs[j])
    ensures r.None? ==> forall j :: 0 <= j < |xs| ==> !p(xs[j])
  {
    if |xs| == 0 then None
    else if p(xs[0]) then Some(0)
    else
      match FirstIndex(xs[1..], p)
      case None => None
      case Some(i) => Some(i + 1)
  }

  /** `findTagIdWithName`: the id of the first tag whose name equals `name`
      exactly (case-sensitively), or `None`. */
  function FindTagIdWithName(tags: seq<Entity>, name: string): (r: Option<Id>)
    ensures r.None? <==> forall j :: 0 <= j < |tags| ==> tags[j].name != name
    ensures r.Some? ==> exists i :: 0 <= i < |tags| && tags[i].name == name && tags[i].id == r.value
                                    && forall j :: 0 <= j < i ==> tags[j].name != name
  {
    match FirstIndex(tags, (t: Entity) => t.name == name)
    case None => None
    case Some(i) => Some(tags[i].id)
  }

  datatype Movie = Movie(id: Id, name: string, aliases: string)

  /** `findMovieByName`: the first movie whose name equals `name` exactly. */
  function FindMovieByName(movies: seq<Movie>, name: string): (r: Option<Movie>)
    ensures r.None? <==> forall j :: 0 <= j < |movies| ==> movies[j].name != name
    ensures r.Some? ==> exists i :: 0 <= i < |movies| && movies[i] == r.value && r.value.name == name
                                    && forall j :: 0 <= j < i ==> movies[j].name != name
  {
    match FirstIndex(movies, (m: Movie) => m.name == name)
    case None => None
    case Some(i) => Some(movies[i])
  }

  // ---------------------------------------------------------------------
  // Paged finders
  // ---------------------------------------------------------------------

  const ScenesPerPage: nat := 1000
  const PathRegexScenesPerPage: nat := 100
  const GalleriesPerPage: nat := 100
  const ImagesPerPage: nat := 1000

  /** Pages `from`, `from + 1`, ..., `from + n - 1`, concatenated in order. */
  ghost function Pages<T>(pageAt: nat -> seq<T>, from: nat, n: nat): seq<T>
    decreases n
  {
    if n == 0 then [] else pageAt(from) + Pages(pageAt, from + 1, n - 1)
  }

  /** `xs` is what reading `n` pages from `from` gives: every page but the
      last was full, the last one was not. */
  ghost predicate PagedBy<T>(pageAt: nat -> seq<T>, perPage: nat, from: nat, n: nat, xs: seq<T>) {
    && n >= 1
    && xs == Pages(pageAt, from, n)
    && (forall p :: from <= p < from + n - 1 ==> |pageAt(p)| == perPage)
    && |pageAt(from + n - 1)| != perPage
  }

  ghost predicate IsPaged<T>(pageAt: nat -> seq<T>, perPage: nat, from: nat, xs: seq<T>) {
    exists n: nat :: PagedBy(pageAt, perPage, from, n, xs)
  }

  /** A full page followed by a paged rest is a paged result. */
  lemma FullPageThenRest<T>(pageAt: nat -> seq<T>, perPage: nat, from: nat, rest: seq<T>)
    requires |pageAt(from)| == perPage
    requires IsPaged(pageAt, perPage, from + 1, rest)
    ensures IsPaged(pageAt, perPage, from, pageAt(from) + rest)
  {
    var n: nat :| PagedBy(pageAt, perPage, from + 1, n, rest);
    assert PagedBy(pageAt, perPage, from, n + 1, pageAt(from) + rest);
  }

  /** The recursive finder body shared by `__findScenesByTags`,
      `__findScenesByPathRegex`, `__findGalleriesByTags`, `__findGalleries`
      and `__findImages`: read page `page`; if it holds exactly `perPage`
      items, append the pages after it. `fuel` bounds the recursion depth;
      running out of it stands for Python's recursion limit. */
  function Fetch<T>(pageAt: nat -> seq<T>, perPage: nat, page: nat, fuel: nat): (r: Option<seq<T>>)
    ensures r.Some? ==> IsPaged(pageAt, perPage, page, r.value)
    decreases fuel
  {
    if fuel == 0 then None
    else
      var items := pageAt(page);
      if |items| == perPage then
        match Fetch(pageAt, perPage, page + 1, fuel - 1)
        case None => None
        case Some(rest) =>
          FullPageThenRest(pageAt, perPage, page, rest);
          Some(items + rest)
      else
        assert PagedBy(pageAt, perPage, page, 1, items);
        Some(items)
  }

  // Each finder sends its query argument with every page request, so the
  // server is a function of that argument and of the page number.

  /** `findScenesByTags`: scenes carrying the tags, 1000 a page. */
  function FindScenesByTags(server: seq<Id> -> nat -> seq<Scene>, tagIds: seq<Id>, fuel: nat): (r: Option<seq<Scene>>)
    ensures r.Some? ==> IsPaged(server(tagIds), ScenesPerPage, 1, r.value)
  {
    Fetch(server(tagIds), ScenesPerPage, 1, fuel)
  }

  /** `findScenesByPathRegex`: scenes whose path matches, 100 a page. */
  function FindScenesByPathRegex(server: string -> nat -> seq<Scene>, regex: string, fuel: nat): (r: Option<seq<Scene>>)
    ensures r.Some? ==> IsPaged(server(regex), PathRegexScenesPerPage, 1, r.value)
  {
    Fetch(server(regex), PathRegexScenesPerPage, 1, fuel)
  }

  /** `findGalleriesByTags`: galleries carrying the tags, 100 a page. */
  function FindGalleriesByTags<G>(server: seq<Id> -> nat -> seq<G>, tagIds: seq<Id>, fuel: nat): (r: Option<seq<G>>)
    ensures r.Some? ==> IsPaged(server(tagIds), GalleriesPerPage, 1, r.value)
  {
    Fetch(server(tagIds), GalleriesPerPage, 1, fuel)
  }

  /** `findGalleries`, 100 galleries a page. Its query text reads only the
      variable `$studio_ids`, which the client never sets, so the filter it is
      given never reaches the server: the pages do not depend on it. */
  function FindGalleries<G, F>(server: nat -> seq<G>, filter: Option<F>, fuel: nat): (r: Option<seq<G>>)
    ensures r.Some? ==> IsPaged(server, GalleriesPerPage, 1, r.value)
  {
    Fetch(server, GalleriesPerPage, 1, fuel)
  }

  /** `findImages`: images matching the optional filter, 1000 a page. */
  function FindImages<I, F>(server: Option<F> -> nat -> seq<I>, filter: Option<F>, fuel: nat): (r: Option<seq<I>>)
    ensures r.Some? ==> IsPaged(server(filter), ImagesPerPage, 1, r.value)
  {
    Fetch(server(filter), ImagesPerPage, 1, fuel)
  }

  /** A server that pages a fixed catalog `items`: page 1 holds the first
      `perPage` items, page `p + 1` is page `p` of the rest. */
  function PageOf<T>(items: seq<T>, perPage: nat, p: nat): seq<T>
    decreases p
  {
    var k := if |items| < perPage then |items| else perPage;
    if p <= 1 then items[..k] else PageOf(items[k..], perPage, p - 1)
  }

  /** Reading from page `p + 1` of one server is reading from page `p` of
      another whose pages are shifted by one. */
  lemma {:induction false} FetchShift<T>(f: nat -> seq<T>, g: nat -> seq<T>, perPage: nat, p: nat, fuel: nat)
    requires p >= 1
    requires forall q :: q >= 1 ==> f(q + 1) == g(q)
    ensures Fetch(f, perPage, p + 1, fuel) == Fetch(g, perPage, p, fuel)
    decreases fuel
  {
    if fuel > 0 {
      assert f(p + 1) == g(p);
      FetchShift(f, g, perPage, p + 1, fuel - 1);
    }
  }

  /** Past a full first page, the pages of a catalog are the pages of the
      rest of it, shifted by one. */
  lemma PageOfShift<T>(items: seq<T>, perPage: nat)
    requires 0 < perPage <= |items|
    ensures PageOf(items, perPage, 1) == items[..perPage]
    ensures forall q: nat :: q >= 1 ==> PageOf(items, perPage, q + 1) == PageOf(items[perPage..], perPage, q)
  {
  }

  /** Enough fuel for a catalog leaves enough, one page shorter, for its
      rest. */
  lemma FuelForRest(n: nat, perPage: nat, fuel: nat)
    requires 0 < perPage <= n && fuel * perPage > n
    ensures fuel >= 2 && (fuel - 1) * perPage > n - perPage
  {
    assert (fuel - 1) * perPage == fuel * perPage - perPage;
  }

  /** Against a server paging a fixed catalog, the finders return the whole
      catalog in order, provided the recursion may go one page deeper than
      the number of full pages. */
  lemma {:induction false} FetchWholeCatalog<T>(items: seq<T>, perPage: nat, fuel: nat)
    requires perPage > 0 && fuel * perPage > |items|
    ensures Fetch((q: nat) => PageOf(items, perPage, q), perPage, 1, fuel) == Some(items)
    decreases fuel
  {
    var f := (q: nat) => PageOf(items, perPage, q);
    if |items| >= perPage {
      var rest := items[perPage..];
      var g := (q: nat) => PageOf(rest, perPage, q);
      PageOfShift(items, perPage);
      FuelForRest(|items|, perPage, fuel);
      FetchShift(f, g, perPage, 1, fuel - 1);
      FetchWholeCatalog(rest, perPage, fuel - 1);
      assert Fetch(f, perPage, 2, fuel - 1) == Some(rest);
      assert items == f(1) + rest;
    } else {
      assert f(1) == items;
    }
  }

  // ---------------------------------------------------------------------
  // Scrapers
  // ---------------------------------------------------------------------

  /** The scraper `scrapeScene` uses when the caller names none. */
  const DefaultSceneScraper := "ThePornDB"

  /** The `scraper_id` argument of `scrapeScene`, with its default. */
  function SceneScraperId(requested: Option<string>): (id: string)
    ensures requested.Some? ==> id == requested.value
    ensures requested.None? ==> id == DefaultSceneScraper
  {
    requested.GetOr(DefaultSceneScraper)
  }

  /** One entry of `listSceneScrapers`: its urls and supported scrape kinds. */
  datatype SceneScraper = SceneScraper(name: string, urls: seq<string>, supportedScrapes: seq<string>)

  /** The scrapers that can scrape by URL, in their order, duplicates
      kept. */
  function UrlCapable(scrapers: seq<SceneScraper>): (r: seq<SceneScraper>)
    ensures forall s :: s in r <==> s in scrapers && "URL" in s.supportedScrapes
    ensures |r| <= |scrapers|
    ensures |scrapers| == 1 ==> r == if "URL" in scrapers[0].supportedScrapes then scrapers else []
  {
    if |scrapers| == 0 then []
    else if "URL" in scrapers[0].supportedScrapes then [scrapers[0]] + UrlCapable(scrapers[1..])
    else UrlCapable(scrapers[1..])
  }

  /** Filtering a concatenation filters each part and keeps them in order:
      together with the one-scraper case of `UrlCapable`'s contract, this
      fixes the result completely, order and multiplicity included. */
  lemma {:induction false} UrlCapableAppend(a: seq<SceneScraper>, b: seq<SceneScraper>)
    ensures UrlCapable(a + b) == UrlCapable(a) + UrlCapable(b)
    decreases |a|
  {
    if |a| > 0 {
      assert (a + b)[0] == a[0] && (a + b)[1..] == a[1..] + b;
      UrlCapableAppend(a[1..], b);
    } else {
      assert a + b == b;
    }
  }

  /** All urls of a list of scrapers, in order. */
  function AllUrls(scrapers: seq<SceneScraper>): seq<string> {
    if |scrapers| == 0 then [] else scrapers[0].urls + AllUrls(scrapers[1..])
  }

  /** `sceneScraperURLs`: the network location of `'https://' + url` for
      every url of every URL-capable scraper, in order. */
  function SceneScraperUrls(scrapers: seq<SceneScraper>): (hosts: seq<string>)
    ensures |hosts| == |AllUrls(UrlCapable(scrapers))|
    ensures forall k :: 0 <= k < |hosts| ==> hosts[k] == Authority(AllUrls(UrlCapable(scrapers))[k])
  {
    if |scrapers| == 0 then []
    else
      var rest := SceneScraperUrls(scrapers[1..]);
      if "URL" in scrapers[0].supportedScrapes then
        var urls := scrapers[0].urls;
        var mine := seq(|urls|, k requires 0 <= k < |urls| => Netloc(Https + "://" + urls[k]));
        HttpsHosts(urls);
        mine + rest
      else
        rest
  }

  lemma HttpsHosts(urls: seq<string>)
    ensures forall k :: 0 <= k < |urls| ==> Netloc(Https + "://" + urls[k]) == Authority(urls[k])
  {
    forall k | 0 <= k < |urls| {
      NetlocOfHttps(urls[k]);
    }
  }
}

=== FILE: performer_extract.dfy ===
/** The performer-from-filename strategy (`__bulk_create_performer`): parse a
    performer name out of each tagged scene's file name, find that performer
    in the catalog listed at the start (by name or alias, ignoring case) or
    create it, and attach it to the scene. */
module PerformerExtract {
  import opened Base
  import opened Text
  import opened Remote
  import opened Batch
  import Client
  import UrlScrape

  // ---------------------------------------------------------------------
  // Names and aliases
  // ---------------------------------------------------------------------

  /** `os.path.basename(path)`: the text after the last `/`. */
  function Basename(path: string): (b: string)
    ensures '/' !in b && EndsWith(path, b)
    ensures '/' !in path ==> b == path
    ensures '/' in path ==> |b| < |path| && path[|path| - |b| - 1] == '/'
  {
    AfterSuffix(path, '/');
    After(path, '/')
  }

  /** `s.replace(a, b)` for single characters. */
  function ReplaceChar(s: string, a: char, b: char): (r: string)
    ensures |r| == |s|
    ensures forall k :: 0 <= k < |s| ==> r[k] == if s[k] == a then b else s[k]
    ensures a != b ==> a !in r
    ensures a !in s ==> r == s
  {
    seq(|s|, k requires 0 <= k < |s| => if s[k] == a then b else s[k])
  }

  /** Strips every word of a list. */
  function StripAll(ws: seq<string>): (r: seq<string>)
    ensures |r| == |ws|
    ensures forall k :: 0 <= k < |ws| ==> r[k] == Strip(ws[k])
  {
    seq(|ws|, k requires 0 <= k < |ws| => Strip(ws[k]))
  }

  /** `[p.strip().lower() for p in aliases.replace('/', ',').split(',')]`:
      a performer's aliases, split at `/` and `,`. */
  function AliasTokens(aliases: string): (ts: seq<string>)
    ensures |ts| == |Split(ReplaceChar(aliases, '/', ','), ',')| >= 1
  {
    LowerAll(StripAll(Split(ReplaceChar(aliases, '/', ','), ',')))
  }

  /** A separator that no part holds does not occur in their join. */
  lemma {:induction false} JoinAvoids(parts: seq<string>, sep: char, c: char)
    requires c != sep
    requires forall k :: 0 <= k < |parts| ==> c !in parts[k]
    ensures c !in Join(parts, sep)
  {
    if |parts| > 1 {
      JoinAvoids(parts[1..], sep, c);
      assert Join(parts, sep) == parts[0] + [sep] + Join(parts[1..], sep);
    }
  }

  /** An alias list written as names separated by commas gives back exactly
      those names, stripped and lower-cased. */
  lemma AliasTokensOfList(names: seq<string>)
    requires |names| >= 1
    requires forall k :: 0 <= k < |names| ==> ',' !in names[k] && '/' !in names[k]
    ensures AliasTokens(Join(names, ',')) == LowerAll(StripAll(names))
  {
    JoinAvoids(names, ',', '/');
    SplitJoin(names, ',');
  }

  /** The catalog entry's name equals the candidate, ignoring case. */
  predicate NameHit(e: Entity, name: string) {
    e.name != "" && Lower(name) == Lower(e.name)
  }

  /** One of the catalog entry's aliases equals the candidate, ignoring case
      and surrounding blanks. */
  predicate AliasHit(e: Entity, name: string) {
    e.aliases != "" && Lower(name) in AliasTokens(e.aliases)
  }

  predicate Hit(e: Entity, name: string) {
    NameHit(e, name) || AliasHit(e, name)
  }

  /** Every name written in a comma-separated alias list finds the entry,
      once stripped of surrounding blanks. */
  lemma ListedAliasHits(e: Entity, names: seq<string>, k: nat)
    requires k < |names| && e.aliases == Join(names, ',') && e.aliases != ""
    requires forall j :: 0 <= j < |names| ==> ',' !in names[j] && '/' !in names[j]
    ensures AliasHit(e, Strip(names[k]))
  {
    AliasTokensOfList(names);
    assert LowerAll(StripAll(names))[k] == Lower(Strip(names[k]));
  }

  /** The `for performer in all_performers` search: the id of the first
      catalog entry that the candidate hits by name or alias. */
  function MatchPerformer(catalog: seq<Entity>, name: string): (r: Option<Id>)
    ensures r.None? <==> forall e :: e in catalog ==> !Hit(e, name)
    ensures r.Some? ==> exists i :: (0 <= i < |catalog| && catalog[i].id == r.value
      && Hit(catalog[i], name) && forall j :: 0 <= j < i ==> !Hit(catalog[j], name))
  {
    match Client.FirstIndex(catalog, e => Hit(e, name))
    case None => None
    case Some(i) => Some(catalog[i].id)
  }

  /** Names differing only in letter case hit the same catalog entries, so
      the title-cased name of a performer is found wherever the parsed name
      would be. */
  lemma HitIgnoresTitleCase(e: Entity, name: string)
    ensures Hit(e, TitleCase(name)) <==> Hit(e, name)
  {
    TitleCaseSameLetters(name);
  }

  // ---------------------------------------------------------------------
  // One scene
  // ---------------------------------------------------------------------

  /** The name parsed from the scene's file: the groups of the first match
      of the pattern in the basename, joined by spaces. `search` is the
      regular-expression engine: `None` when the pattern does not match. */
  function Parsed(search: string -> Option<seq<string>>, scene: Scene): (name: Option<string>)
    ensures name.Some? <==>
      (scene.path.Some? && scene.path.value != "" && search(Basename(scene.path.value)).Some?)
    ensures name.Some? ==> name.value == Join(search(Basename(scene.path.value)).value, ' ')
    ensures name.Some? ==>
      var groups := search(Basename(scene.path.value)).value;
      |groups| >= 1 && (forall k :: 0 <= k < |groups| ==> ' ' !in groups[k]) ==> Split(name.value, ' ') == groups
  {
    if scene.path.None? || scene.path.value == "" then None
    else
      match search(Basename(scene.path.value))
      case None => None
      case Some(groups) =>
        if |groups| >= 1 && forall k :: 0 <= k < |groups| ==> ' ' !in groups[k] then
          SplitJoin(groups, ' ');
          Some(Join(groups, ' '))
        else
          Some(Join(groups, ' '))
  }

  /** The scene's attached performers already include the name, ignoring case. */
  predicate Attached(scene: Scene, name: string) {
    exists e :: e in scene.performers && Lower(e.name) == Lower(name)
  }

  /** The scene reaches `updateScene`: a non-empty name was parsed and it is
      not attached yet. */
  predicate Counted(search: string -> Option<seq<string>>, scene: Scene): (b: bool)
    ensures b ==> scene.path.Some? && scene.path.value != ""
    ensures b ==> search(Basename(scene.path.value)).Some?
    ensures b ==> forall e :: e in scene.performers ==> Lower(e.name) != Lower(Parsed(search, scene).value)
  {
    var name := Parsed(search, scene);
    name.Some? && name.value != "" && !Attached(scene, name.value)
  }

  /** The update of this strategy: the scene id, plus the performer ids when
      there are any. */
  function PerformerPayload(id: Id, ids: seq<Id>): (p: Payload)
    ensures p.id == id && p.(performerIds := None).IsBare()
    ensures p.performerIds.Some? <==> |ids| > 0
    ensures p.performerIds.Some? ==> p.performerIds.value == ids
  {
    Seed(id).(performerIds := UrlScrape.IfNonEmpty(ids))
  }

  /** One iteration of the loop of `__bulk_create_performer`. A scene that
      gets past the path, pattern and attached-name checks is always updated
      and counted, even when no performer id was found or created. */
  function PerformerStep(create: bool, search: string -> Option<seq<string>>, run: Run, scene: Scene): (r: Run)
    ensures !Counted(search, scene) ==> r == run
    ensures Counted(search, scene) ==>
      r.count == run.count + 1 && |r.state.updates| == |run.state.updates| + 1
      && run.state.updates <= r.state.updates
    ensures Counted(search, scene) ==>
      var p := r.state.updates[|run.state.updates|];
      var name := Parsed(search, scene).value;
      && p.id == scene.id && p.(performerIds := None).IsBare()
      && (p.performerIds.Some? <==> MatchPerformer(run.catalog, name).Some? || create)
    ensures Counted(search, scene) && MatchPerformer(run.catalog, Parsed(search, scene).value).Some? ==>
      r.state == UpdateScene(run.state, PerformerPayload(scene.id, [MatchPerformer(run.catalog, Parsed(search, scene).value).value]))
      && r.catalog == run.catalog
    ensures Counted(search, scene) && MatchPerformer(run.catalog, Parsed(search, scene).value).None? && create ==>
      var e := Entity(run.state.nextId, TitleCase(Parsed(search, scene).value), "", "");
      && r.catalog == run.catalog + [e]
      && r.state.performers == run.state.performers + [e]
      && r.state.updates == run.state.updates + [PerformerPayload(scene.id, [e.id])]
      && r.state == UpdateScene(Create(run.state, PerformerKind, e.name, "").0, PerformerPayload(scene.id, [e.id]))
      && r.state.nextId == run.state.nextId + 1
    ensures Counted(search, scene) && MatchPerformer(run.catalog, Parsed(search, scene).value).None? && !create ==>
      r.state == UpdateScene(run.state, Seed(scene.id)) && r.catalog == run.catalog
    ensures r.state.tags == run.state.tags && r.state.studios == run.state.studios
    ensures run.state.performers <= r.state.performers && run.catalog <= r.catalog
    ensures |r.catalog| - |run.catalog| == |r.state.performers| - |run.state.performers| <= 1
    ensures |r.catalog| > |run.catalog| ==>
      r.catalog[|run.catalog|].name != "" && forall i :: 0 <= i < |run.catalog| ==> !Hit(run.catalog[i], r.catalog[|run.catalog|].name)
    ensures run.catalog == run.state.performers ==> r.catalog == r.state.performers
    ensures Fresh(run.state) ==> Fresh(r.state)
    ensures r.missing == run.missing && r.sleeps == run.sleeps && r.requests == run.requests
  {
    if !Counted(search, scene) then run
    else
      var name := Parsed(search, scene).value;
      match MatchPerformer(run.catalog, name)
      case Some(id) =>
        var p := PerformerPayload(scene.id, [id]);
        run.(state := UpdateScene(run.state, p), count := run.count + 1)
      case None =>
        if create then
          var title := TitleCase(name);
          var created := Create(run.state, PerformerKind, title, "");
          var e := Entity(created.1, title, "", "");
          TitleCaseSameLetters(name);
          forall i | 0 <= i < |run.catalog|
            ensures !Hit(run.catalog[i], title)
          {
            assert run.catalog[i] in run.catalog;
            HitIgnoresTitleCase(run.catalog[i], name);
          }
          assert created.0.performers == run.state.performers + [e] by {
            assert created.0.Store(PerformerKind) == run.state.Store(PerformerKind) + [e];
          }
          var p := PerformerPayload(scene.id, [created.1]);
          run.(state := UpdateScene(created.0, p), count := run.count + 1, catalog := run.catalog + [e])
        else
          run.(state := UpdateScene(run.state, Seed(scene.id)), count := run.count + 1)
  }

  /** A catalog entry appended after entries that all miss the name is the
      one the search finds. */
  lemma MatchAppended(catalog: seq<Entity>, e: Entity, name: string)
    requires forall c :: c in catalog ==> !Hit(c, name)
    requires Hit(e, name)
    ensures MatchPerformer(catalog + [e], name) == Some(e.id)
  {
    var all := catalog + [e];
    assert all[|catalog|] == e;
    forall k | 0 <= k < |catalog|
      ensures !Hit(all[k], name)
    {
      assert all[k] == catalog[k] && catalog[k] in catalog;
    }
    var r := MatchPerformer(all, name);
    assert r.Some?;
    var i :| 0 <= i < |all| && all[i].id == r.value && Hit(all[i], name);
  }

  /** Once a performer was created for a parsed name, the next scene with
      the same name finds it in the catalog instead of creating it again. */
  lemma SecondSightingMatches(search: string -> Option<seq<string>>, run: Run, scene: Scene, later: Scene)
    requires Counted(search, scene)
    requires MatchPerformer(run.catalog, Parsed(search, scene).value).None?
    requires Parsed(search, later) == Parsed(search, scene)
    ensures MatchPerformer(PerformerStep(true, search, run, scene).catalog, Parsed(search, later).value)
         == Some(run.state.nextId)
  {
    var name := Parsed(search, scene).value;
    var e := Entity(run.state.nextId, TitleCase(name), "", "");
    assert PerformerStep(true, search, run, scene).catalog == run.catalog + [e];
    TitleCaseSameLetters(name);
    assert Hit(e, name);
    MatchAppended(run.catalog, e, name);
  }

  // ---------------------------------------------------------------------
  // The loop
  // ---------------------------------------------------------------------

  /** Every entry from `from` on is hit, by name or alias, by none of the
      entries before it: the strategy never creates a performer it could
      have found. */
  predicate CreatedUnmatched(catalog: seq<Entity>, from: nat) {
    forall j, i :: from <= j < |catalog| && 0 <= i < j ==> !Hit(catalog[i], catalog[j].name)
  }

  /** Every update of this strategy carries the id of a scene of the run and
      at most one performer id, and nothing else. */
  predicate PerformerOnly(updates: seq<Payload>, scenes: seq<Scene>) {
    forall p :: p in updates ==>
      p.(performerIds := None).IsBare()
      && (p.performerIds.None? || |p.performerIds.value| == 1)
      && exists sc :: sc in scenes && sc.id == p.id
  }

  /** The loop of `__bulk_create_performer` over the tagged scenes. */
  function PerformerScenes(create: bool, search: string -> Option<seq<string>>, run: Run, scenes: seq<Scene>): (r: Run)
    ensures r.count - run.count == |r.state.updates| - |run.state.updates| <= |scenes|
    ensures run.state.updates <= r.state.updates
    ensures PerformerOnly(r.state.updates[|run.state.updates|..], scenes)
    ensures run.catalog <= r.catalog && run.state.performers <= r.state.performers
    ensures CreatedUnmatched(r.catalog, |run.catalog|)
    ensures !create ==> r.catalog == run.catalog && r.state.performers == run.state.performers
    ensures run.catalog == run.state.performers ==> r.catalog == r.state.performers
    ensures Fresh(run.state) ==> Fresh(r.state)
    ensures r.state.tags == run.state.tags && r.state.studios == run.state.studios
    ensures r.missing == run.missing && r.sleeps == run.sleeps && r.requests == run.requests
    decreases |scenes|
  {
    if |scenes| == 0 then run
    else
      var next := PerformerStep(create, search, run, scenes[0]);
      var r := PerformerScenes(create, search, next, scenes[1..]);
      PerformerTail(run, next, r, scenes);
      r
  }

  /** The scenes the strategy updates, computed without the server: the
      ids of the counted scenes, in order. */
  function CountedIds(search: string -> Option<seq<string>>, scenes: seq<Scene>): seq<Id>
    decreases |scenes|
  {
    if |scenes| == 0 then []
    else if Counted(search, scenes[0]) then [scenes[0].id] + CountedIds(search, scenes[1..])
    else CountedIds(search, scenes[1..])
  }

  /** The loop updates exactly the counted scenes, once each, in order, and
      counts each of them. */
  lemma {:induction false} PerformerScenesUpdated(create: bool, search: string -> Option<seq<string>>,
                                                  run: Run, scenes: seq<Scene>)
    ensures var r := PerformerScenes(create, search, run, scenes);
      && UpdatedScenes(r.state.updates) == UpdatedScenes(run.state.updates) + CountedIds(search, scenes)
      && r.count == run.count + |CountedIds(search, scenes)|
    decreases |scenes|
  {
    if |scenes| > 0 {
      var next := PerformerStep(create, search, run, scenes[0]);
      PerformerScenesUpdated(create, search, next, scenes[1..]);
      var first := if Counted(search, scenes[0]) then [scenes[0].id] else [];
      var sent := next.state.updates[|run.state.updates|..];
      assert next.state.updates == run.state.updates + sent;
      assert UpdatedScenes(sent) == first by {
        if Counted(search, scenes[0]) {
          assert sent == [next.state.updates[|run.state.updates|]];
        }
      }
      UpdatedScenesAppend(run.state.updates, sent);
      AppendAssoc(UpdatedScenes(run.state.updates), first, CountedIds(search, scenes[1..]));
    }
  }

  /** Glue for the inductive step of `PerformerScenes`. */
  lemma PerformerTail(run: Run, next: Run, r: Run, scenes: seq<Scene>)
    requires |scenes| > 0
    requires run.state.updates <= next.state.updates <= r.state.updates
    requires PerformerOnly(next.state.updates[|run.state.updates|..], scenes[..1])
    requires PerformerOnly(r.state.updates[|next.state.updates|..], scenes[1..])
    requires run.catalog <= next.catalog <= r.catalog
    requires |next.catalog| > |run.catalog| ==>
      |next.catalog| == |run.catalog| + 1
      && forall i :: 0 <= i < |run.catalog| ==> !Hit(run.catalog[i], next.catalog[|run.catalog|].name)
    requires CreatedUnmatched(r.catalog, |next.catalog|)
    ensures PerformerOnly(r.state.updates[|run.state.updates|..], scenes)
    ensures CreatedUnmatched(r.catalog, |run.catalog|)
  {
    var a, b, c := run.state.updates, next.state.updates, r.state.updates;
    assert c[|a|..] == b[|a|..] + c[|b|..];
    forall p | p in c[|a|..]
      ensures exists sc :: sc in scenes && sc.id == p.id
    {
      if p in b[|a|..] {
        var sc :| sc in scenes[..1] && sc.id == p.id;
        assert sc in scenes;
      } else {
        var sc :| sc in scenes[1..] && sc.id == p.id;
        assert sc in scenes;
      }
    }
    forall j, i | |run.catalog| <= j < |r.catalog| && 0 <= i < j
      ensures !Hit(r.catalog[i], r.catalog[j].name)
    {
      if j < |next.catalog| {
        assert j == |run.catalog|;
        assert r.catalog[j] == next.catalog[j] && r.catalog[i] == run.catalog[i];
      }
    }
  }

  /** Two performers created in one run never share a name up to letter
      case. */
  lemma CreatedNamesDistinct(create: bool, search: string -> Option<seq<string>>, run: Run, scenes: seq<Scene>)
    ensures var r := PerformerScenes(create, search, run, scenes);
      forall i, j :: |run.catalog| <= i < j < |r.catalog| ==> Lower(r.catalog[i].name) != Lower(r.catalog[j].name)
  {
    var r := PerformerScenes(create, search, run, scenes);
    CreatedNamesNonEmpty(create, search, run, scenes);
    assert CreatedUnmatched(r.catalog, |run.catalog|);
    forall i, j | |run.catalog| <= i < j < |r.catalog|
      ensures Lower(r.catalog[i].name) != Lower(r.catalog[j].name)
    {
      assert !Hit(r.catalog[i], r.catalog[j].name);
    }
  }

  /** Every performer a run creates has a non-empty name. */
  lemma {:induction false} CreatedNamesNonEmpty(create: bool, search: string -> Option<seq<string>>, run: Run, scenes: seq<Scene>)
    ensures var r := PerformerScenes(create, search, run, scenes);
      forall i :: |run.catalog| <= i < |r.catalog| ==> r.catalog[i].name != ""
    decreases |scenes|
  {
    if |scenes| > 0 {
      var next := PerformerStep(create, search, run, scenes[0]);
      var r := PerformerScenes(create, search, run, scenes);
      assert r == PerformerScenes(create, search, next, scenes[1..]);
      CreatedNamesNonEmpty(create, search, next, scenes[1..]);
      forall i | |run.catalog| <= i < |r.catalog|
        ensures r.catalog[i].name != ""
      {
        if i < |next.catalog| {
          assert r.catalog[i] == next.catalog[i];
        }
      }
    }
  }
}

=== FILE: plugin.dfy ===
/** The plugin's entry points: the configuration with its defaults, the
    three task wrappers that look up the control tag and fetch the tagged
    scenes before running a strategy, the tasks that create and remove the
    control tag, and the dispatch on the task's `mode` argument. */
module Plugin {
  import opened Base
  import opened Remote
  import opened Batch
  import Client
  import UrlScrape
  import Rescrape
  import PerformerExtract

  // ---------------------------------------------------------------------
  // Configuration and environment
  // ---------------------------------------------------------------------

  /** The configuration after coercion: control tag, creation switches and
      the delay in seconds. */
  datatype Config = Config(controlTag: string, flags: UrlScrape.Flags, delay: int)

  const DefaultControlTag := "0.Scrape"
  const DefaultDelay := 5

  /** The values used when the configuration module leaves them out. */
  function Defaults(): (c: Config)
    ensures c.controlTag == DefaultControlTag && c.delay == DefaultDelay
    ensures !c.flags.createPerformers && !c.flags.createTags && !c.flags.createStudios
  {
    Config(DefaultControlTag, UrlScrape.Flags(false, false, false), DefaultDelay)
  }

  /** A `delay` attribute: missing, present but rejected by `int()`, or an
      integer. */
  datatype Setting = Absent | Invalid | Given(value: int)

  /** The attributes of the user's `config` module, each possibly missing.
      A switch is recorded by its truth value, which `bool()` always gives. */
  datatype ConfigModule = ConfigModule(
    controlTag: Option<string>,
    createMissingStudios: Option<bool>,
    createMissingTags: Option<bool>,
    createMissingPerformers: Option<bool>,
    parsePerformerPattern: Option<string>,
    delay: Setting)

  /** The `config` module as shipped: every attribute present. */
  const Shipped := ConfigModule(Some("0.Scrape"), Some(false), Some(false), Some(false),
                                Some("^.*[ \\._]([A-Z][a-zA-Z]+)[ \\._]([A-Z][a-zA-Z]*)[ \\._].*$"), Given(5))

  /** The module-level `control_tag`: the configured one, or `0.Scrape`
      when the attribute is missing. */
  function ControlTag(m: ConfigModule): (t: string)
    ensures m.controlTag.Some? ==> t == m.controlTag.value
    ensures m.controlTag.None? ==> t == DefaultControlTag
  {
    match m.controlTag
    case Some(tag) => tag
    case None => DefaultControlTag
  }

  /** All three creation switches are present. */
  predicate SwitchesSet(m: ConfigModule) {
    m.createMissingStudios.Some? && m.createMissingTags.Some? && m.createMissingPerformers.Some?
  }

  /** The settings `bulk_scrape` reads. It reads the studio, tag and
      performer switches and then the delay, in that order, and the first
      missing attribute or rejected delay abandons the reads still to come:
      each setting is configured only when every attribute before it was
      present, and otherwise keeps its default. */
  function ScrapeConfig(m: ConfigModule): (c: Config)
    ensures c.controlTag == ControlTag(m)
    ensures c.flags.createStudios <==> m.createMissingStudios == Some(true)
    ensures c.flags.createTags <==> m.createMissingStudios.Some? && m.createMissingTags == Some(true)
    ensures c.flags.createPerformers <==>
      m.createMissingStudios.Some? && m.createMissingTags.Some? && m.createMissingPerformers == Some(true)
    ensures SwitchesSet(m) && m.delay.Given? ==> c.delay == m.delay.value
    ensures c.delay != DefaultDelay ==> SwitchesSet(m) && m.delay == Given(c.delay)
  {
    var tag := ControlTag(m);
    match m.createMissingStudios
    case None => Defaults().(controlTag := tag)
    case Some(studios) =>
      match m.createMissingTags
      case None => Config(tag, UrlScrape.Flags(false, false, studios), DefaultDelay)
      case Some(tags) =>
        match m.createMissingPerformers
        case None => Config(tag, UrlScrape.Flags(false, tags, studios), DefaultDelay)
        case Some(performers) =>
          var delay := if m.delay.Given? then m.delay.value else DefaultDelay;
          Config(tag, UrlScrape.Flags(performers, tags, studios), delay)
  }

  /** The settings `bulk_scrape_scene_url` reads: only the delay, which
      keeps its default when missing or rejected. */
  function RescrapeConfig(m: ConfigModule): (c: Config)
    ensures c.controlTag == ControlTag(m)
    ensures m.delay.Given? ==> c.delay == m.delay.value
    ensures !m.delay.Given? ==> c.delay == DefaultDelay
    ensures c.flags == Defaults().flags
  {
    Config(ControlTag(m), Defaults().flags, if m.delay.Given? then m.delay.value else DefaultDelay)
  }

  /** The settings `bulk_create_performer` reads: the performer switch, then
      the pattern, then the delay, the first missing attribute abandoning
      the rest. The pattern is `None` when the wrapper's own default stays. */
  function PerformerConfig(m: ConfigModule): (r: (Config, Option<string>))
    ensures r.0.controlTag == ControlTag(m)
    ensures r.0.flags.createPerformers <==> m.createMissingPerformers == Some(true)
    ensures !r.0.flags.createTags && !r.0.flags.createStudios
    ensures r.1.Some? <==> m.createMissingPerformers.Some? && m.parsePerformerPattern.Some?
    ensures r.1.Some? ==> r.1 == m.parsePerformerPattern
    ensures r.0.delay != DefaultDelay ==> r.1.Some? && m.delay == Given(r.0.delay)
    ensures r.1.Some? && m.delay.Given? ==> r.0.delay == m.delay.value
  {
    var tag := ControlTag(m);
    match m.createMissingPerformers
    case None => (Defaults().(controlTag := tag), None)
    case Some(performers) =>
      var flags := UrlScrape.Flags(performers, false, false);
      match m.parsePerformerPattern
      case None => (Config(tag, flags, DefaultDelay), None)
      case Some(pattern) =>
        (Config(tag, flags, if m.delay.Given? then m.delay.value else DefaultDelay), Some(pattern))
  }

  /** The shipped configuration reads as the defaults in every wrapper. */
  lemma ShippedIsDefault()
    ensures ScrapeConfig(Shipped) == Defaults()
    ensures RescrapeConfig(Shipped) == Defaults()
    ensures PerformerConfig(Shipped).0 == Defaults()
  {
  }

  /** A configuration without a studio switch leaves every `bulk_scrape`
      setting at its default, however the later attributes are set. */
  lemma MissingStudioSwitch(m: ConfigModule)
    requires m.createMissingStudios.None?
    ensures ScrapeConfig(m) == Defaults().(controlTag := ControlTag(m))
  {
  }

  /** What the plugin receives from outside: the pages `findScenes` answers
      for a list of tag ids, the recursion budget of the paged finder, the
      clock, the two scrape queries, and the performer-name pattern as a
      search on a file name (the groups of its first match). */
  datatype Env = Env(
    scenePages: seq<Id> -> nat -> seq<Scene>,
    fuel: nat,
    clock: Clock,
    scrapeUrl: string -> Option<UrlScrape.ScrapedScene>,
    scrapeById: (Id, string) -> Option<Rescrape.SceneUrl>,
    search: string -> Option<seq<string>>)

  // ---------------------------------------------------------------------
  // Creating and removing the control tag
  // ---------------------------------------------------------------------

  /** `add_tag`: create the control tag unless a tag of that name exists. */
  function AddTag(s: State, name: string): (r: State)
    ensures Client.FindTagIdWithName(r.tags, name).Some?
    ensures Client.FindTagIdWithName(s.tags, name).Some? ==> r == s
    ensures Client.FindTagIdWithName(s.tags, name).None? ==>
      r.tags == s.tags + [Entity(s.nextId, name, "", "")] && r.nextId == s.nextId + 1
    ensures r.performers == s.performers && r.studios == s.studios && r.updates == s.updates
    ensures Fresh(s) ==> Fresh(r)
  {
    match Client.FindTagIdWithName(s.tags, name)
    case Some(_) => s
    case None =>
      var created := Create(s, TagKind, name, "");
      assert created.0.tags[|s.tags|].name == name;
      created.0
  }

  /** `remove_tag`: destroy the control tag when a tag of that name exists. */
  function RemoveTag(s: State, name: string): (r: State)
    ensures Client.FindTagIdWithName(s.tags, name).None? ==> r == s
    ensures Client.FindTagIdWithName(s.tags, name).Some? ==>
      Client.FindTagIdWithName(s.tags, name).value !in Ids(r.tags)
    ensures forall e :: e in r.tags <==> e in s.tags && Some(e.id) != Client.FindTagIdWithName(s.tags, name)
    ensures r.performers == s.performers && r.studios == s.studios && r.updates == s.updates
    ensures r.nextId == s.nextId
  {
    match Client.FindTagIdWithName(s.tags, name)
    case None => s
    case Some(id) => DestroyTag(s, id)
  }

  /** Removing the entities of an id that only the last entity carries. */
  lemma WithoutLast(xs: seq<Entity>, e: Entity)
    requires e.id !in Ids(xs)
    ensures Without(xs + [e], e.id) == xs
  {
    WithoutAppend(xs, [e], e.id);
    assert Without([e], e.id) == [];
  }

  /** Creating the control tag and then removing it gives back the tag
      store the server had, when the tag was missing and the ids are fresh. */
  lemma RemoveUndoesAdd(s: State, name: string)
    requires Fresh(s)
    requires Client.FindTagIdWithName(s.tags, name).None?
    ensures RemoveTag(AddTag(s, name), name).tags == s.tags
    ensures RemoveTag(AddTag(s, name), name).nextId == s.nextId + 1
  {
    var a := AddTag(s, name);
    var e := Entity(s.nextId, name, "", "");
    assert a.tags == s.tags + [e];
    var found := Client.FindTagIdWithName(a.tags, name);
    var i :| 0 <= i < |a.tags| && a.tags[i].name == name && a.tags[i].id == found.value
             && forall j :: 0 <= j < i ==> a.tags[j].name != name;
    assert i == |s.tags|;
    assert found == Some(e.id);
    assert e.id !in Ids(s.tags) by {
      assert forall x :: x in s.tags ==> x.id < s.nextId by {
        forall x | x in s.tags ensures x.id < s.nextId {
          assert x in s.Store(TagKind);
        }
      }
    }
    WithoutLast(s.tags, e);
  }

  /** Creating the control tag twice creates it once. */
  lemma AddTagIdempotent(s: State, name: string)
    ensures AddTag(AddTag(s, name), name) == AddTag(s, name)
  {
  }

  // ---------------------------------------------------------------------
  // The three strategies, as tasks
  // ---------------------------------------------------------------------

  /** The scenes carrying the control tag, from the paged finder; `None`
      when the tag does not exist or the finder ran out of recursion. */
  function TaggedScenes(cfg: Config, env: Env, s: State): (r: Option<seq<Scene>>)
    ensures Client.FindTagIdWithName(s.tags, cfg.controlTag).None? ==> r.None?
    ensures r.Some? ==>
      IsPagedScenes(env.scenePages([Client.FindTagIdWithName(s.tags, cfg.controlTag).value]), r.value)
  {
    match Client.FindTagIdWithName(s.tags, cfg.controlTag)
    case None => None
    case Some(tag) => Client.FindScenesByTags(env.scenePages, [tag], env.fuel)
  }

  ghost predicate IsPagedScenes(pageAt: nat -> seq<Scene>, scenes: seq<Scene>) {
    Client.IsPaged(pageAt, Client.ScenesPerPage, 1, scenes)
  }

  /** Why a task that needs the tagged scenes cannot get them. */
  function Missing(cfg: Config, env: Env, s: State): (f: Failure)
    ensures f == TagMissing <==> Client.FindTagIdWithName(s.tags, cfg.controlTag).None?
    ensures f == PageLimit || f == TagMissing
  {
    if Client.FindTagIdWithName(s.tags, cfg.controlTag).None? then TagMissing else PageLimit
  }

  /** `bulk_scrape`: the url strategy over the tagged scenes. */
  function BulkScrape(cfg: Config, env: Env, s: State): (r: Result<Run, Failure>)
    ensures r == Err(TagMissing) <==> Client.FindTagIdWithName(s.tags, cfg.controlTag).None?
    ensures r.Err? <==> TaggedScenes(cfg, env, s).None?
    ensures r.Ok? ==> r.value.count <= |TaggedScenes(cfg, env, s).value|
    ensures r.Ok? ==> s.updates <= r.value.state.updates
    ensures r.Ok? ==> forall p :: p in r.value.state.updates[|s.updates|..] ==>
      p.url.None? && exists sc :: sc in TaggedScenes(cfg, env, s).value && sc.id == p.id
    ensures r.Ok? ==> UrlScrape.NoDuplicates(r.value.missing)
    ensures r.Ok? ==> Paced(cfg.delay, env.clock, r.value.sleeps)
    ensures r.Ok? ==> s.tags <= r.value.state.tags && s.performers <= r.value.state.performers
    ensures r.Ok? ==> UrlScrape.KeepsUnflagged(cfg.flags, s, r.value.state)
  {
    match TaggedScenes(cfg, env, s)
    case None => Err(Missing(cfg, env, s))
    case Some(scenes) =>
      Ok(UrlScrape.ScrapeScenes(cfg.flags, cfg.delay, env.clock, env.scrapeUrl, Begin(s, []), scenes))
  }

  /** `bulk_scrape_scene_url`: the rescrape strategy over the tagged scenes. */
  function BulkRescrape(cfg: Config, env: Env, s: State): (r: Result<Run, Failure>)
    ensures r == Err(TagMissing) <==> Client.FindTagIdWithName(s.tags, cfg.controlTag).None?
    ensures r == Err(NoSceneData) <==> (TaggedScenes(cfg, env, s).Some?
      && exists sc :: sc in TaggedScenes(cfg, env, s).value
                      && env.scrapeById(sc.id, Rescrape.ScraperFor(cfg.controlTag)).None?)
    ensures r.Ok? ==> TaggedScenes(cfg, env, s).Some?
    ensures r.Ok? ==> r.value.count <= |TaggedScenes(cfg, env, s).value|
    ensures r.Ok? ==> s.updates <= r.value.state.updates
    ensures r.Ok? ==> Rescrape.UrlOnly(r.value.state.updates[|s.updates|..], TaggedScenes(cfg, env, s).value)
    ensures r.Ok? ==> forall k :: r.value.state.Store(k) == s.Store(k)
    ensures r.Ok? ==> Paced(cfg.delay, env.clock, r.value.sleeps)
    // exactly the url updates of the scenes whose scrape found a url, in order
    ensures r.Ok? ==>
      var sent := Rescrape.Rescraped(env.scrapeById, cfg.controlTag, TaggedScenes(cfg, env, s).value);
      r.value.state.updates == s.updates + sent && r.value.count == |sent|
  {
    match TaggedScenes(cfg, env, s)
    case None => Err(Missing(cfg, env, s))
    case Some(scenes) =>
      Rescrape.RescrapeScenesExact(cfg.delay, env.clock, env.scrapeById, cfg.controlTag, Begin(s, []), scenes);
      Rescrape.RescrapeScenes(cfg.delay, env.clock, env.scrapeById, cfg.controlTag, Begin(s, []), scenes)
  }

  /** `bulk_create_performer`: the performer strategy over the tagged
      scenes, starting from the listed performers. */
  function BulkCreatePerformer(cfg: Config, env: Env, s: State): (r: Result<Run, Failure>)
    ensures r == Err(TagMissing) <==> Client.FindTagIdWithName(s.tags, cfg.controlTag).None?
    ensures r.Err? <==> TaggedScenes(cfg, env, s).None?
    ensures r.Ok? ==> r.value.count <= |TaggedScenes(cfg, env, s).value|
    ensures r.Ok? ==> s.updates <= r.value.state.updates
    ensures r.Ok? ==> PerformerExtract.PerformerOnly(r.value.state.updates[|s.updates|..], TaggedScenes(cfg, env, s).value)
    ensures r.Ok? ==> r.value.catalog == r.value.state.performers
    ensures r.Ok? ==> (s.performers <= r.value.state.performers
      && PerformerExtract.CreatedUnmatched(r.value.state.performers, |s.performers|))
    ensures r.Ok? && !cfg.flags.createPerformers ==> r.value.state.performers == s.performers
    ensures r.Ok? ==> r.value.state.tags == s.tags && r.value.state.studios == s.studios
    ensures r.Ok? && Fresh(s) ==> Fresh(r.value.state)
    // this strategy sets `last_request` but never calls `wait`, and asks no scraper
    ensures r.Ok? ==> r.value.sleeps == [] && r.value.requests == []
    // exactly the scenes with a parsed name not attached yet are updated, in order
    ensures r.Ok? ==>
      var counted := PerformerExtract.CountedIds(env.search, TaggedScenes(cfg, env, s).value);
      UpdatedScenes(r.value.state.updates) == UpdatedScenes(s.updates) + counted && r.value.count == |counted|
  {
    match TaggedScenes(cfg, env, s)
    case None => Err(Missing(cfg, env, s))
    case Some(scenes) =>
      PerformerExtract.PerformerScenesUpdated(cfg.flags.createPerformers, env.search, Begin(s, s.performers), scenes);
      Ok(PerformerExtract.PerformerScenes(cfg.flags.createPerformers, env.search, Begin(s, s.performers), scenes))
  }

  /** Over a whole task, the url strategy asks for the urls `Plan` picks
      and updates as many scenes as `Plan` finds data for, starting with
      no host marked; and it never asks a host again after it answered
      null. */
  lemma BulkScrapePlan(cfg: Config, env: Env, s: State)
    requires TaggedScenes(cfg, env, s).Some?
    ensures var r := BulkScrape(cfg, env, s);
      var o := UrlScrape.Plan(env.scrapeUrl, [], TaggedScenes(cfg, env, s).value);
      && r.Ok?
      && r.value.requests == o.requests && r.value.missing == o.missing
      && r.value.count == |o.updated|
      && UpdatedScenes(r.value.state.updates) == UpdatedScenes(s.updates) + o.updated
  {
    var scenes := TaggedScenes(cfg, env, s).value;
    UrlScrape.ScrapeScenesPlan(cfg.flags, cfg.delay, env.clock, env.scrapeUrl, Begin(s, []), scenes);
  }

  /** Over a whole task, a host that answered null is never asked again. */
  lemma BulkScrapeNotAskedAgain(cfg: Config, env: Env, s: State)
    requires TaggedScenes(cfg, env, s).Some?
    ensures var r := BulkScrape(cfg, env, s);
      r.Ok? && UrlScrape.NotAskedAfterNull(env.scrapeUrl, r.value.requests, 0)
  {
    var scenes := TaggedScenes(cfg, env, s).value;
    UrlScrape.MarkedHostNotAskedAgain(cfg.flags, cfg.delay, env.clock, env.scrapeUrl, Begin(s, []), scenes);
  }

  // ---------------------------------------------------------------------
  // Dispatch
  // ---------------------------------------------------------------------

  /** The modes `run` recognises. */
  predicate Known(mode: string) {
    mode in {"", "scrape", "scrapeurl", "createperformer", "create", "remove"}
  }

  /** The server a task leaves behind, or why it stopped. */
  function Served(run: Result<Run, Failure>): (r: Result<State, Failure>)
    ensures r.Ok? <==> run.Ok?
    ensures run.Ok? ==> r.value == run.value.state
    ensures run.Err? ==> r.error == run.error
  {
    match run
    case Ok(done) => Ok(done.state)
    case Err(e) => Err(e)
  }

  /** `run`: pick the task by `mode`. `Ok` carries the server afterwards and
      stands for the output `"ok"`; an unknown mode does nothing and still
      answers `"ok"`. */
  function Dispatch(mode: string, m: ConfigModule, env: Env, s: State): (r: Result<State, Failure>)
    ensures mode == "" || mode == "scrape" ==> r == Served(BulkScrape(ScrapeConfig(m), env, s))
    ensures mode == "scrapeurl" ==> r == Served(BulkRescrape(RescrapeConfig(m), env, s))
    ensures mode == "createperformer" ==> r == Served(BulkCreatePerformer(PerformerConfig(m).0, env, s))
    ensures mode == "create" ==> r == Ok(AddTag(s, ControlTag(m)))
    ensures mode == "remove" ==> r == Ok(RemoveTag(s, ControlTag(m)))
    ensures !Known(mode) ==> r == Ok(s)
    ensures mode == "create" || mode == "remove" ==> r.Ok? && r.value.updates == s.updates
    ensures r.Err? ==> mode in {"", "scrape", "scrapeurl", "createperformer"}
    ensures r == Err(TagMissing) ==> Client.FindTagIdWithName(s.tags, ControlTag(m)).None?
    ensures r.Ok? ==> s.updates <= r.value.updates
    ensures r.Ok? ==> s.performers <= r.value.performers
  {
    if mode == "" || mode == "scrape" then
      match BulkScrape(ScrapeConfig(m), env, s)
      case Ok(run) => Ok(run.state)
      case Err(e) => Err(e)
    else if mode == "scrapeurl" then
      match BulkRescrape(RescrapeConfig(m), env, s)
      case Ok(run) =>
        assert run.state.Store(PerformerKind) == s.Store(PerformerKind);
        Ok(run.state)
      case Err(e) => Err(e)
    else if mode == "createperformer" then
      match BulkCreatePerformer(PerformerConfig(m).0, env, s)
      case Ok(run) => Ok(run.state)
      case Err(e) => Err(e)
    else if mode == "create" then Ok(AddTag(s, ControlTag(m)))
    else if mode == "remove" then Ok(RemoveTag(s, ControlTag(m)))
    else Ok(s)
  }

  /** Running the tag-creating task and then the tag-removing task leaves
      the tag store as it was, when the tag did not exist before. */
  lemma CreateThenRemove(m: ConfigModule, env: Env, s: State)
    requires Fresh(s)
    requires Client.FindTagIdWithName(s.tags, ControlTag(m)).None?
    ensures var a := Dispatch("create", m, env, s);
      a.Ok? && Dispatch("remove", m, env, a.value).Ok?
      && Dispatch("remove", m, env, a.value).value.tags == s.tags
  {
    RemoveUndoesAdd(s, ControlTag(m));
  }
}

=== FILE: remote.dfy ===
/** The media server as the plugin sees it, reduced to an abstract state: the
    tag, performer and studio stores, the log of scene updates the plugin
    sent, and the counter the server draws fresh ids from. Every remote call
    the batch strategies make is a function on this state. */
module Remote {
  import opened Base

  type Id = nat

  /** Which store an entity lives in. */
  datatype Kind = TagKind | PerformerKind | StudioKind

  /** A tag, performer or studio. A performer's `aliases` is one delimited
      string; a studio has a `url`; fields a kind does not use stay empty. */
  datatype Entity = Entity(id: Id, name: string, aliases: string, url: string)

  /** A scene as `findScenesByTags` returns it: id, path, url and the
      attached performers (each with id and name). `None` is a missing field. */
  datatype Scene = Scene(id: Id, path: Option<string>, url: Option<string>, performers: seq<Entity>)

  /** The `SceneUpdateInput` the plugin sends: `None` leaves the key out of
      the dictionary, so the server leaves that field alone. */
  datatype Payload = Payload(
    id: Id,
    title: Option<string>,
    details: Option<string>,
    date: Option<string>,
    coverImage: Option<string>,
    url: Option<string>,
    tagIds: Option<seq<Id>>,
    performerIds: Option<seq<Id>>,
    studioId: Option<Id>)
  {
    /** Only the scene id is set. */
    predicate IsBare() {
      title.None? && details.None? && date.None? && coverImage.None? && url.None?
      && tagIds.None? && performerIds.None? && studioId.None?
    }
  }

  /** The dictionary `{'id': id}` every strategy starts from. */
  function Seed(id: Id): (p: Payload)
    ensures p.id == id && p.IsBare()
  {
    Payload(id, None, None, None, None, None, None, None, None)
  }

  datatype State = State(
    tags: seq<Entity>,
    performers: seq<Entity>,
    studios: seq<Entity>,
    updates: seq<Payload>,
    nextId: Id)
  {
    function Store(kind: Kind): seq<Entity> {
      match kind
      case TagKind => tags
      case PerformerKind => performers
      case StudioKind => studios
    }

    function WithStore(kind: Kind, xs: seq<Entity>): (r: State)
      ensures r.Store(kind) == xs
      ensures forall k :: k != kind ==> r.Store(k) == Store(k)
      ensures r.updates == updates && r.nextId == nextId
    {
      match kind
      case TagKind => this.(tags := xs)
      case PerformerKind => this.(performers := xs)
      case StudioKind => this.(studios := xs)
    }
  }

  /** The ids of a store. */
  function Ids(xs: seq<Entity>): set<Id> {
    set e | e in xs :: e.id
  }

  /** Every stored id was drawn from the counter before its current value. */
  predicate Fresh(s: State) {
    forall k: Kind, e :: e in s.Store(k) ==> e.id < s.nextId
  }

  /** `createTagWithName`, `createPerformerByName` and `createStudio`: the
      server stores a new entity under a fresh id and returns that id. */
  function Create(s: State, kind: Kind, name: string, url: string): (r: (State, Id))
    ensures r.0.Store(kind) == s.Store(kind) + [Entity(r.1, name, "", url)]
    ensures forall k :: k != kind ==> r.0.Store(k) == s.Store(k)
    ensures r.0.updates == s.updates
    ensures r.0.nextId == r.1 + 1 && r.1 == s.nextId
    ensures Fresh(s) ==> Fresh(r.0) && r.1 !in Ids(s.Store(kind))
  {
    var id := s.nextId;
    var s' := s.WithStore(kind, s.Store(kind) + [Entity(id, name, "", url)]);
    (s'.(nextId := id + 1), id)
  }

  /** `updateScene`: the server receives one more update payload. */
  function UpdateScene(s: State, p: Payload): (r: State)
    ensures r.updates == s.updates + [p]
    ensures forall k :: r.Store(k) == s.Store(k)
    ensures r.nextId == s.nextId
  {
    s.(updates := s.updates + [p])
  }

  /** The scenes a list of updates is for, in order. */
  function UpdatedScenes(updates: seq<Payload>): (ids: seq<Id>)
    ensures |ids| == |updates|
    ensures forall k :: 0 <= k < |ids| ==> ids[k] == updates[k].id
  {
    seq(|updates|, k requires 0 <= k < |updates| => updates[k].id)
  }

  /** The scenes of two lists of updates, one after the other. */
  lemma UpdatedScenesAppend(a: seq<Payload>, b: seq<Payload>)
    ensures UpdatedScenes(a + b) == UpdatedScenes(a) + UpdatedScenes(b)
  {
    assert forall k :: 0 <= k < |a + b| ==> (a + b)[k].id == (UpdatedScenes(a) + UpdatedScenes(b))[k];
  }

  /** The store without the entities carrying `id`, in the same order. */
  function Without(xs: seq<Entity>, id: Id): (r: seq<Entity>)
    ensures forall e :: e in r <==> e in xs && e.id != id
    ensures id !in Ids(xs) ==> r == xs
  {
    if |xs| == 0 then []
    else if xs[0].id == id then Without(xs[1..], id)
    else [xs[0]] + Without(xs[1..], id)
  }

  /** Removing an id from two lists one after the other is removing it
      from their concatenation. */
  lemma {:induction false} WithoutAppend(a: seq<Entity>, b: seq<Entity>, id: Id)
    ensures Without(a + b, id) == Without(a, id) + Without(b, id)
    decreases |a|
  {
    if |a| == 0 {
      assert a + b == b;
    } else {
      assert (a + b)[1..] == a[1..] + b;
      WithoutAppend(a[1..], b, id);
      if a[0].id != id {
        AppendAssoc([a[0]], Without(a[1..], id), Without(b, id));
      }
    }
  }

  /** `destroyTag`: the tag with that id leaves the tag store. */
  function DestroyTag(s: State, id: Id): (r: State)
    ensures id !in Ids(r.tags)
    ensures forall e :: e in r.tags <==> e in s.tags && e.id != id
    ensures r.performers == s.performers && r.studios == s.studios
    ensures r.updates == s.updates && r.nextId == s.nextId
  {
    s.(tags := Without(s.tags, id))
  }
}

=== FILE: rescrape.dfy ===
/** The metadata-rescrape strategy (`__bulk_scrape_scene_url`): scrape every
    tagged scene by its id, with the scraper the control tag names, and keep
    only the url the scraper found. */
module Rescrape {
  import opened Base
  import opened Text
  import opened Remote
  import opened Batch
  import Client

  /** The result of `scrapeScene`, which asks only for the url ("" when null). */
  datatype SceneUrl = SceneUrl(url: string)

  /** The scraper named by the control tag: the text after its last `_`,
      or the client's default when the tag has no `_`. */
  function ScraperFor(controlTag: string): (id: string)
    ensures '_' !in controlTag ==> id == Client.DefaultSceneScraper
  {
    if '_' in controlTag then Client.SceneScraperId(Some(After(controlTag, '_')))
    else Client.SceneScraperId(None)
  }

  /** A tag with an `_` ends with `_` followed by the scraper id it names,
      and that id holds no `_`. */
  lemma ScraperIsTagSuffix(controlTag: string)
    requires '_' in controlTag
    ensures '_' !in ScraperFor(controlTag)
    ensures EndsWith(controlTag, "_" + ScraperFor(controlTag))
  {
    var id := ScraperFor(controlTag);
    AfterSuffix(controlTag, '_');
    var n := |controlTag|;
    assert controlTag[n - |id| - 1..] == [controlTag[n - |id| - 1]] + controlTag[n - |id|..];
  }

  /** The update of this strategy: the scene id and the scraped url. */
  function UrlPayload(id: Id, url: string): (p: Payload)
    ensures p.id == id && p.url == Some(url)
    ensures p.(url := None).IsBare()
  {
    Seed(id).(url := Some(url))
  }

  /** One iteration of the loop of `__bulk_scrape_scene_url`. Every scene
      passes a throttle point and a request, skipped or not; a null answer
      aborts the run; an answer without url is skipped; otherwise the url is
      sent back and the scene counted. */
  function RescrapeStep(delay: int, clock: Clock, scrape: (Id, string) -> Option<SceneUrl>,
                        controlTag: string, run: Run, scene: Scene): (r: Result<Run, Failure>)
    ensures scrape(scene.id, ScraperFor(controlTag)).None? <==> r == Err(NoSceneData)
    ensures r.Ok? ==> r.value.requests == run.requests + [ScraperFor(controlTag)]
    ensures r.Ok? ==> |r.value.sleeps| == |run.sleeps| + (if delay == 0 then 0 else 1)
    ensures r.Ok? && Paced(delay, clock, run.sleeps) ==> Paced(delay, clock, r.value.sleeps)
    ensures r.Ok? ==> r.value.missing == run.missing && r.value.catalog == run.catalog
    ensures r.Ok? ==> forall k :: r.value.state.Store(k) == run.state.Store(k)
    ensures r.Ok? && scrape(scene.id, ScraperFor(controlTag)).value.url == "" ==>
      r.value.state == run.state && r.value.count == run.count
    ensures r.Ok? && scrape(scene.id, ScraperFor(controlTag)).value.url != "" ==>
      r.value.state.updates == run.state.updates + [UrlPayload(scene.id, scrape(scene.id, ScraperFor(controlTag)).value.url)]
      && r.value.count == run.count + 1
  {
    var waited := Throttle(run, delay, clock);
    var scraper := ScraperFor(controlTag);
    var asked := waited.(requests := waited.requests + [scraper]);
    match scrape(scene.id, scraper)
    case None => Err(NoSceneData)
    case Some(d) =>
      if d.url == "" then Ok(asked)
      else Ok(asked.(state := UpdateScene(asked.state, UrlPayload(scene.id, d.url)), count := asked.count + 1))
  }

  /** Every update of this strategy carries the id of a scraped scene and a
      non-empty url, and nothing else. */
  predicate UrlOnly(updates: seq<Payload>, scenes: seq<Scene>) {
    forall p :: p in updates ==>
      p.url.Some? && p.url.value != "" && p.(url := None).IsBare() && exists sc :: sc in scenes && sc.id == p.id
  }

  /** The loop of `__bulk_scrape_scene_url` over the tagged scenes. */
  function RescrapeScenes(delay: int, clock: Clock, scrape: (Id, string) -> Option<SceneUrl>,
                          controlTag: string, run: Run, scenes: seq<Scene>): (r: Result<Run, Failure>)
    ensures r.Err? <==> exists sc :: sc in scenes && scrape(sc.id, ScraperFor(controlTag)).None?
    ensures r.Err? ==> r.error == NoSceneData
    ensures r.Ok? ==> |r.value.sleeps| == |run.sleeps| + (if delay == 0 then 0 else |scenes|)
    ensures r.Ok? && Paced(delay, clock, run.sleeps) ==> Paced(delay, clock, r.value.sleeps)
    ensures r.Ok? ==> |r.value.requests| == |run.requests| + |scenes|
    ensures r.Ok? ==> r.value.count - run.count == |r.value.state.updates| - |run.state.updates| <= |scenes|
    ensures r.Ok? ==> run.state.updates <= r.value.state.updates
    ensures r.Ok? ==> UrlOnly(r.value.state.updates[|run.state.updates|..], scenes)
    ensures r.Ok? ==> forall k :: r.value.state.Store(k) == run.state.Store(k)
    decreases |scenes|
  {
    if |scenes| == 0 then Ok(run)
    else
      match RescrapeStep(delay, clock, scrape, controlTag, run, scenes[0])
      case Err(e) => Err(e)
      case Ok(next) =>
        var r := RescrapeScenes(delay, clock, scrape, controlTag, next, scenes[1..]);
        if r.Ok? then
          RescrapeTail(run.state.updates, next.state.updates, r.value.state.updates, scenes);
          r
        else
          r
  }

  /** The updates the strategy sends, computed without the server: one url
      payload for each scene, in order, whose scrape answers a non-empty
      url. */
  function Rescraped(scrape: (Id, string) -> Option<SceneUrl>, controlTag: string, scenes: seq<Scene>): seq<Payload>
    decreases |scenes|
  {
    if |scenes| == 0 then []
    else
      var rest := Rescraped(scrape, controlTag, scenes[1..]);
      match scrape(scenes[0].id, ScraperFor(controlTag))
      case Some(d) => if d.url != "" then [UrlPayload(scenes[0].id, d.url)] + rest else rest
      case None => rest
  }

  /** A run that finishes sends exactly the updates of `Rescraped`, in
      order, and counts each of them. */
  lemma {:induction false} RescrapeScenesExact(delay: int, clock: Clock, scrape: (Id, string) -> Option<SceneUrl>,
                                               controlTag: string, run: Run, scenes: seq<Scene>)
    ensures var r := RescrapeScenes(delay, clock, scrape, controlTag, run, scenes);
      r.Ok? ==>
        && r.value.state.updates == run.state.updates + Rescraped(scrape, controlTag, scenes)
        && r.value.count == run.count + |Rescraped(scrape, controlTag, scenes)|
    decreases |scenes|
  {
    if |scenes| > 0 {
      var step := RescrapeStep(delay, clock, scrape, controlTag, run, scenes[0]);
      if step.Ok? {
        var next := step.value;
        RescrapeScenesExact(delay, clock, scrape, controlTag, next, scenes[1..]);
        var rest := Rescraped(scrape, controlTag, scenes[1..]);
        var sent := next.state.updates[|run.state.updates|..];
        assert next.state.updates == run.state.updates + sent;
        assert Rescraped(scrape, controlTag, scenes) == sent + rest;
        AppendAssoc(run.state.updates, sent, rest);
      }
    }
  }

  /** Glue for the inductive step of `RescrapeScenes`. */
  lemma RescrapeTail(a: seq<Payload>, b: seq<Payload>, c: seq<Payload>, scenes: seq<Scene>)
    requires |scenes| > 0
    requires a <= b <= c
    requires UrlOnly(b[|a|..], scenes[..1])
    requires UrlOnly(c[|b|..], scenes[1..])
    ensures UrlOnly(c[|a|..], scenes)
  {
    assert c[|a|..] == b[|a|..] + c[|b|..];
    forall p | p in c[|a|..]
      ensures exists sc :: sc in scenes && sc.id == p.id
    {
      if p in b[|a|..] {
        var sc :| sc in scenes[..1] && sc.id == p.id;
        assert sc in scenes;
      } else {
        var sc :| sc in scenes[1..] && sc.id == p.id;
        assert sc in scenes;
      }
    }
  }
}

=== FILE: scenarios.dfy ===
/** Concrete runs of the model on small inputs. */
module Scenarios {
  import opened Text
  import Rescrape
  import Plugin

  /** Title-casing a word followed by a space and a rest. */
  lemma TitleCaseCons(w: string, rest: string)
    requires ' ' !in w
    ensures TitleCase(w + " " + rest) == Capitalize(w) + " " + TitleCase(rest)
  {
    var s := w + " " + rest;
    IndexOfAfterPrefix(w, ' ', rest);
    assert s[..|w|] == w && s[|w| + 1..] == rest;
  }

  /** A first and a last name without spaces are title-cased word by word:
      the pattern of "john smith" becoming "John Smith". */
  lemma TitleCaseFullName(first: string, last: string)
    requires ' ' !in first && ' ' !in last
    ensures TitleCase(first + " " + last) == Capitalize(first) + " " + Capitalize(last)
  {
    TitleCaseCons(first, last);
  }

  /** Capitalizing raises the first letter and lowers the rest. */
  lemma CapitalizeExamples()
    ensures Capitalize("john") == "John" && Capitalize("sMITH") == "Smith"
  {
    assert Lower("ohn") == "ohn";
    assert Lower("MITH") == "mith";
  }

  /** The default control tag holds no `_`, so the rescrape asks the
      default scraper. */
  lemma DefaultTagScraper()
    ensures Rescrape.ScraperFor(Plugin.DefaultControlTag) == "ThePornDB"
  {
    var t := Plugin.DefaultControlTag;
    assert forall k :: 0 <= k < |t| ==> t[k] != '_';
  }

  /** A suffix after `_` names the scraper the rescrape asks. */
  lemma SuffixTagScraper()
    ensures Rescrape.ScraperFor("0.Scrape_StashDB") == "StashDB"
  {
    assert "0.Scrape_StashDB" == "0.Scrape" + ['_'] + "StashDB";
    assert '_' !in "StashDB";
    AfterAppend("0.Scrape", '_', "StashDB");
  }
}

=== FILE: text.dfy ===
/** ASCII models of the Python string operations the plugin relies on:
    `str.lower`, `str.capitalize`, `str.split(sep)`, `sep.join`, `str.strip`,
    the substring test `t in s`, and `str(n)` for a natural number. */
module Text {

  /** `str.upper()` on one character, ASCII only. */
  function UpperChar(c: char): char {
    if 'a' <= c <= 'z' then (c as int - 32) as char else c
  }

  /** `str.lower()` on one character, ASCII only. */
  function LowerChar(c: char): char {
    if 'A' <= c <= 'Z' then (c as int + 32) as char else c
  }

  /** `s.lower()`. */
  function Lower(s: string): (r: string)
    ensures |r| == |s|
    ensures forall i :: 0 <= i < |s| ==> r[i] == LowerChar(s[i])
  {
    seq(|s|, i requires 0 <= i < |s| => LowerChar(s[i]))
  }

  /** `w.capitalize()`: first character upper case, the rest lower case. */
  function Capitalize(w: string): (r: string)
    ensures |r| == |w|
  {
    if |w| == 0 then "" else [UpperChar(w[0])] + Lower(w[1..])
  }

  /** Position of the first occurrence of `c` in `s`. */
  function IndexOf(s: string, c: char): (i: nat)
    requires c in s
    ensures i < |s| && s[i] == c
    ensures c !in s[..i]
  {
    if s[0] == c then 0
    else
      var j := IndexOf(s[1..], c);
      assert s[..j + 1] == [s[0]] + s[1..][..j];
      j + 1
  }

  /** `s.split(sep)` with an explicit separator: every occurrence of `sep`
      cuts, so `k` separators give `k + 1` (possibly empty) parts. */
  function Split(s: string, sep: char): (parts: seq<string>)
    ensures |parts| >= 1
    ensures forall k :: 0 <= k < |parts| ==> sep !in parts[k]
    decreases |s|
  {
    if sep !in s then [s]
    else
      var i := IndexOf(s, sep);
      [s[..i]] + Split(s[i + 1..], sep)
  }

  /** `sep.join(parts)` for a one-character separator. */
  function Join(parts: seq<string>, sep: char): string {
    if |parts| == 0 then ""
    else if |parts| == 1 then parts[0]
    else parts[0] + [sep] + Join(parts[1..], sep)
  }

  /** Capitalizes every word of a list. */
  function CapitalizeAll(ws: seq<string>): (r: seq<string>)
    ensures |r| == |ws|
    ensures forall k :: 0 <= k < |ws| ==> r[k] == Capitalize(ws[k])
  {
    seq(|ws|, k requires 0 <= k < |ws| => Capitalize(ws[k]))
  }

  /** Lower-cases every word of a list. */
  function LowerAll(ws: seq<string>): (r: seq<string>)
    ensures |r| == |ws|
    ensures forall k :: 0 <= k < |ws| ==> r[k] == Lower(ws[k])
  {
    seq(|ws|, k requires 0 <= k < |ws| => Lower(ws[k]))
  }

  /** The plugin's naming rule for created tags, performers and studios:
      `" ".join(x.capitalize() for x in s.split(" "))`, word by word. */
  function TitleCase(s: string): (r: string)
    ensures |r| == |s|
    decreases |s|
  {
    if ' ' !in s then Capitalize(s)
    else
      var i := IndexOf(s, ' ');
      Capitalize(s[..i]) + [' '] + TitleCase(s[i + 1..])
  }

  /** The text after the last `sep` (all of `s` when there is none):
      `s.split(sep)[-1]`, and also `os.path.basename` for `sep == '/'`. */
  function After(s: string, sep: char): string {
    var parts := Split(s, sep);
    parts[|parts| - 1]
  }

  /** The characters Python's `str.isspace` accepts, ASCII only. */
  predicate IsSpace(c: char) {
    c == ' ' || 9 <= c as int <= 13 || 28 <= c as int <= 31
  }

  /** Every character of `t` is white space. */
  predicate AllSpace(t: string) {
    forall k :: 0 <= k < |t| ==> IsSpace(t[k])
  }

  /** `s.lstrip()`: `s` is a run of white space followed by the result,
      which does not start with white space. */
  function TrimStart(s: string): (r: string)
    ensures |r| <= |s| && s == s[..|s| - |r|] + r
    ensures AllSpace(s[..|s| - |r|])
    ensures |r| > 0 ==> !IsSpace(r[0])
  {
    if |s| > 0 && IsSpace(s[0]) then
      var t := s[1..];
      var r := TrimStart(t);
      assert s[..|s| - |r|] == [s[0]] + t[..|t| - |r|];
      r
    else s
  }

  /** `s.rstrip()`: `s` is the result followed by a run of white space, and
      the result does not end with white space. */
  function TrimEnd(s: string): (r: string)
    ensures |r| <= |s| && s == r + s[|r|..]
    ensures AllSpace(s[|r|..])
    ensures |r| > 0 ==> !IsSpace(r[|r| - 1])
  {
    if |s| > 0 && IsSpace(s[|s| - 1]) then
      var t := s[..|s| - 1];
      var r := TrimEnd(t);
      assert s[|r|..] == t[|r|..] + [s[|s| - 1]];
      r
    else s
  }

  /** `s.strip()`. */
  function Strip(s: string): string {
    TrimEnd(TrimStart(s))
  }
  /** Text that neither starts nor ends with white space is stripped to
      itself. */
  lemma StripUnchanged(t: string)
    requires |t| > 0 && !IsSpace(t[0]) && !IsSpace(t[|t| - 1])
    ensures Strip(t) == t
  {
    assert TrimStart(t) == t;
  }


  /** `s.startswith(p)`. */
  predicate StartsWith(s: string, p: string) {
    |p| <= |s| && s[..|p|] == p
  }

  /** `s.endswith(p)`. */
  predicate EndsWith(s: string, p: string) {
    |p| <= |s| && s[|s| - |p|..] == p
  }

  /** The substring test `t in s`. */
  predicate Contains(s: string, t: string)
    decreases |s|
  {
    StartsWith(s, t) || (|s| > 0 && Contains(s[1..], t))
  }

  /** One decimal digit. */
  function DigitChar(d: nat): (c: char)
    requires d < 10
    ensures '0' <= c <= '9'
  {
    ('0' as int + d) as char
  }

  predicate IsDigits(s: string) {
    forall k :: 0 <= k < |s| ==> '0' <= s[k] <= '9'
  }

  /** `str(n)` for a natural number. */
  function NatToDecimal(n: nat): (s: string)
    ensures |s| >= 1 && IsDigits(s)
  {
    if n < 10 then [DigitChar(n)] else NatToDecimal(n / 10) + [DigitChar(n % 10)]
  }

  /** `int(s)` for a string of decimal digits. */
  function DecimalValue(s: string): nat
    requires IsDigits(s)
  {
    if |s| == 0 then 0
    else DecimalValue(s[..|s| - 1]) * 10 + (s[|s| - 1] as int - '0' as int)
  }

  // ---------------------------------------------------------------------
  // Character lemmas
  // ---------------------------------------------------------------------

  lemma CaseChars(c: char)
    ensures UpperChar(UpperChar(c)) == UpperChar(c)
    ensures LowerChar(LowerChar(c)) == LowerChar(c)
    ensures LowerChar(UpperChar(c)) == LowerChar(c)
    ensures UpperChar(LowerChar(c)) == UpperChar(c)
    ensures c != ' ' ==> UpperChar(c) != ' ' && LowerChar(c) != ' '
  {
  }

  lemma LowerIdempotent(s: string)
    ensures Lower(Lower(s)) == Lower(s)
  {
    forall i | 0 <= i < |s| {
      CaseChars(s[i]);
    }
  }

  /** Capitalizing never introduces a space. */
  lemma CapitalizeKeepsSpaces(w: string)
    ensures ' ' in Capitalize(w) ==> ' ' in w
  {
    if ' ' in Capitalize(w) {
      var r := Capitalize(w);
      var i :| 0 <= i < |r| && r[i] == ' ';
      if i == 0 {
        CaseChars(w[0]);
      } else {
        assert r[i] == Lower(w[1..])[i - 1];
        CaseChars(w[i]);
      }
      assert w[i] == ' ';
    }
  }

  lemma CapitalizeIdempotent(w: string)
    ensures Capitalize(Capitalize(w)) == Capitalize(w)
  {
    if |w| > 0 {
      var r := Capitalize(w);
      CaseChars(w[0]);
      assert r[1..] == Lower(w[1..]);
      LowerIdempotent(w[1..]);
    }
  }

  lemma LowerCapitalize(w: string)
    ensures Lower(Capitalize(w)) == Lower(w)
  {
    if |w| > 0 {
      var r := Capitalize(w);
      forall i | 0 <= i < |w|
        ensures LowerChar(r[i]) == LowerChar(w[i])
      {
        CaseChars(w[i]);
        if i > 0 {
          assert r[i] == Lower(w[1..])[i - 1];
        }
      }
    }
  }

  // ---------------------------------------------------------------------
  // Split / Join
  // ---------------------------------------------------------------------

  /** The first occurrence is the one with no earlier occurrence. */
  lemma IndexOfUnique(s: string, c: char, i: nat)
    requires i < |s| && s[i] == c && c !in s[..i]
    ensures IndexOf(s, c) == i
  {
  }

  lemma IndexOfAfterPrefix(p: string, c: char, q: string)
    requires c !in p
    ensures c in p + [c] + q
    ensures IndexOf(p + [c] + q, c) == |p|
  {
    var s := p + [c] + q;
    assert s[|p|] == c;
    assert s[..|p|] == p;
    IndexOfUnique(s, c, |p|);
  }

  /** Splitting a word, a separator and a rest gives the word followed by
      the parts of the rest. */
  lemma SplitCons(w: string, sep: char, rest: string)
    requires sep !in w
    ensures Split(w + [sep] + rest, sep) == [w] + Split(rest, sep)
  {
    var s := w + [sep] + rest;
    IndexOfAfterPrefix(w, sep, rest);
    assert s[..|w|] == w;
    assert s[|w| + 1..] == rest;
  }

  lemma JoinCons(w: string, rest: seq<string>, sep: char)
    requires |rest| >= 1
    ensures Join([w] + rest, sep) == w + [sep] + Join(rest, sep)
  {
    assert ([w] + rest)[1..] == rest;
  }

  /** Splitting undoes joining when no part contains the separator. */
  lemma {:induction false} SplitJoin(parts: seq<string>, sep: char)
    requires |parts| >= 1
    requires forall k :: 0 <= k < |parts| ==> sep !in parts[k]
    ensures Split(Join(parts, sep), sep) == parts
  {
    if |parts| > 1 {
      var rest := Join(parts[1..], sep);
      assert Join(parts, sep) == parts[0] + [sep] + rest;
      SplitCons(parts[0], sep, rest);
      SplitJoin(parts[1..], sep);
      assert parts == [parts[0]] + parts[1..];
    }
  }

  /** Joining undoes splitting. */
  lemma {:induction false} JoinSplit(s: string, sep: char)
    ensures Join(Split(s, sep), sep) == s
    decreases |s|
  {
    if sep in s {
      var i := IndexOf(s, sep);
      var parts := Split(s[i + 1..], sep);
      JoinSplit(s[i + 1..], sep);
      JoinCons(s[..i], parts, sep);
      assert s == s[..i] + [sep] + s[i + 1..];
    }
  }

  lemma {:induction false} LowerJoin(parts: seq<string>, sep: char)
    requires LowerChar(sep) == sep
    ensures Lower(Join(parts, sep)) == Join(LowerAll(parts), sep)
  {
    if |parts| > 1 {
      LowerJoin(parts[1..], sep);
      assert LowerAll(parts) == [Lower(parts[0])] + LowerAll(parts[1..]);
      JoinCons(Lower(parts[0]), LowerAll(parts[1..]), sep);
      assert Lower(parts[0] + [sep] + Join(parts[1..], sep))
          == Lower(parts[0]) + [sep] + Lower(Join(parts[1..], sep));
    }
  }

  // ---------------------------------------------------------------------
  // Title-casing
  // ---------------------------------------------------------------------

  lemma CapitalizeAllCons(w: string, ws: seq<string>)
    ensures CapitalizeAll([w] + ws) == [Capitalize(w)] + CapitalizeAll(ws)
  {
  }

  /** Joining capitalized words after a first one. */
  lemma JoinCapitalizeCons(w: string, ws: seq<string>)
    requires |ws| >= 1
    ensures Join(CapitalizeAll([w] + ws), ' ') == Capitalize(w) + [' '] + Join(CapitalizeAll(ws), ' ')
  {
    CapitalizeAllCons(w, ws);
    JoinCons(Capitalize(w), CapitalizeAll(ws), ' ');
  }

  /** Title-casing is joining the capitalized words of the input. */
  lemma {:induction false} TitleCaseIsJoin(s: string)
    ensures TitleCase(s) == Join(CapitalizeAll(Split(s, ' ')), ' ')
    decreases |s|
  {
    if ' ' in s {
      var i := IndexOf(s, ' ');
      var w, rest := s[..i], s[i + 1..];
      var tail := Split(rest, ' ');
      calc {
        TitleCase(s);
        Capitalize(w) + [' '] + TitleCase(rest);
        { TitleCaseIsJoin(rest); }
        Capitalize(w) + [' '] + Join(CapitalizeAll(tail), ' ');
        { JoinCapitalizeCons(w, tail); }
        Join(CapitalizeAll([w] + tail), ' ');
        { assert Split(s, ' ') == [w] + tail; }
        Join(CapitalizeAll(Split(s, ' ')), ' ');
      }
    } else {
      assert Split(s, ' ') == [s];
      assert CapitalizeAll([s]) == [Capitalize(s)];
    }
  }

  /** Title-casing keeps the space-separated words and capitalizes each one:
      splitting the result on spaces gives the capitalized words of the input,
      so the number of words is preserved. */
  lemma TitleCaseWords(s: string)
    ensures Split(TitleCase(s), ' ') == CapitalizeAll(Split(s, ' '))
    ensures |Split(TitleCase(s), ' ')| == |Split(s, ' ')|
  {
    var parts := Split(s, ' ');
    var caps := CapitalizeAll(parts);
    TitleCaseIsJoin(s);
    forall k | 0 <= k < |caps|
      ensures ' ' !in caps[k]
    {
      CapitalizeKeepsSpaces(parts[k]);
    }
    SplitJoin(caps, ' ');
  }

  /** Title-casing twice is the same as title-casing once. */
  lemma TitleCaseIdempotent(s: string)
    ensures TitleCase(TitleCase(s)) == TitleCase(s)
  {
    var parts := Split(s, ' ');
    TitleCaseWords(s);
    TitleCaseIsJoin(s);
    TitleCaseIsJoin(TitleCase(s));
    forall k | 0 <= k < |parts|
      ensures CapitalizeAll(CapitalizeAll(parts))[k] == CapitalizeAll(parts)[k]
    {
      CapitalizeIdempotent(parts[k]);
    }
    assert CapitalizeAll(CapitalizeAll(parts)) == CapitalizeAll(parts);
  }

  /** Title-casing only changes letter case: the lower-cased result equals
      the lower-cased input, so the result has the input's length and a
      case-insensitive comparison cannot tell them apart. */
  lemma TitleCaseSameLetters(s: string)
    ensures Lower(TitleCase(s)) == Lower(s)
    ensures |TitleCase(s)| == |s|
  {
    var parts := Split(s, ' ');
    var caps := CapitalizeAll(parts);
    TitleCaseIsJoin(s);
    LowerJoin(caps, ' ');
    LowerJoin(parts, ' ');
    forall k | 0 <= k < |parts|
      ensures LowerAll(caps)[k] == LowerAll(parts)[k]
    {
      LowerCapitalize(parts[k]);
    }
    assert LowerAll(caps) == LowerAll(parts);
    JoinSplit(s, ' ');
    assert |Lower(TitleCase(s))| == |TitleCase(s)|;
  }

  // ---------------------------------------------------------------------
  // Last segment
  // ---------------------------------------------------------------------

  lemma {:induction false} AfterSuffix(s: string, sep: char)
    ensures sep !in After(s, sep)
    ensures EndsWith(s, After(s, sep))
    ensures sep !in s ==> After(s, sep) == s
    ensures sep in s ==> |After(s, sep)| < |s| && s[|s| - |After(s, sep)| - 1] == sep
    decreases |s|
  {
    if sep in s {
      var i := IndexOf(s, sep);
      var t := s[i + 1..];
      AfterSuffix(t, sep);
      assert After(s, sep) == After(t, sep);
    }
  }

  /** A leading separator-free word and its separator do not change the
      text after the last separator. */
  lemma AfterCons(w: string, sep: char, rest: string)
    requires sep !in w
    ensures After(w + [sep] + rest, sep) == After(rest, sep)
  {
    SplitCons(w, sep, rest);
    var t := Split(rest, sep);
    assert ([w] + t)[|[w] + t| - 1] == t[|t| - 1];
  }

  /** The text after the last separator of `p + [sep] + d` is `d` when `d`
      holds no separator. */
  lemma {:induction false} AfterAppend(p: string, sep: char, d: string)
    requires sep !in d
    ensures After(p + [sep] + d, sep) == d
    decreases |p|
  {
    if sep in p {
      var j := IndexOf(p, sep);
      var w, p2 := p[..j], p[j + 1..];
      assert p + [sep] + d == w + [sep] + (p2 + [sep] + d) by {
        assert p == w + [sep] + p2;
      }
      AfterCons(w, sep, p2 + [sep] + d);
      AfterAppend(p2, sep, d);
    } else {
      AfterCons(p, sep, d);
      assert Split(d, sep) == [d];
    }
  }

  // ---------------------------------------------------------------------
  // Substrings and numbers
  // ---------------------------------------------------------------------

  /** A string that contains `t` contains the first character of `t`. */
  lemma {:induction false} ContainsFirstChar(s: string, t: string)
    requires |t| > 0 && Contains(s, t)
    ensures t[0] in s
    decreases |s|
  {
    if StartsWith(s, t) {
      assert s[0] == t[0];
    } else {
      ContainsFirstChar(s[1..], t);
    }
  }

  /** `int(str(n)) == n`. */
  lemma {:induction false} DecimalRoundTrip(n: nat)
    ensures DecimalValue(NatToDecimal(n)) == n
  {
    if n >= 10 {
      var s := NatToDecimal(n);
      assert s[..|s| - 1] == NatToDecimal(n / 10);
      DecimalRoundTrip(n / 10);
    }
  }
}

=== FILE: url.dfy ===
/** The part of Python's `urllib.parse.urlparse` the plugin reads: the scheme
    and the network location (authority, section 3.2 of RFC 3986). */
module Url {
  import opened Text

  datatype UrlParts = UrlParts(scheme: string, netloc: string)

  predicate IsAsciiLetter(c: char) {
    'a' <= c <= 'z' || 'A' <= c <= 'Z'
  }

  /** The characters `urllib.parse` allows in a scheme. */
  predicate IsSchemeChar(c: char) {
    IsAsciiLetter(c) || '0' <= c <= '9' || c == '+' || c == '-' || c == '.'
  }

  /** Text that `urlsplit` accepts as a scheme: a letter followed by scheme
      characters. */
  predicate IsScheme(t: string) {
    |t| > 0 && IsAsciiLetter(t[0]) && forall k :: 0 <= k < |t| ==> IsSchemeChar(t[k])
  }

  /** A character that ends the authority: `/`, `?` or `#`. */
  predicate EndsAuthority(c: char) {
    c == '/' || c == '?' || c == '#'
  }

  /** The longest prefix of `s` free of `/`, `?` and `#`. */
  function Authority(s: string): (r: string)
    ensures StartsWith(s, r)
    ensures forall k :: 0 <= k < |r| ==> !EndsAuthority(r[k])
    ensures |r| < |s| ==> EndsAuthority(s[|r|])
  {
    if |s| == 0 || EndsAuthority(s[0]) then "" else [s[0]] + Authority(s[1..])
  }

  /** `urlparse(url)` reduced to its scheme and netloc: the text before the
      first `:` is the (lower-cased) scheme when it is a valid scheme; the
      netloc follows a leading `//` and runs to the first `/`, `?` or `#`. */
  function Parse(url: string): (u: UrlParts)
    ensures u.netloc != "" ==> Contains(url, "//")
    ensures forall k :: 0 <= k < |u.netloc| ==> !EndsAuthority(u.netloc[k])
  {
    var hasScheme := ':' in url && IsScheme(url[..IndexOf(url, ':')]);
    var scheme := if hasScheme then Lower(url[..IndexOf(url, ':')]) else "";
    var rest := if hasScheme then url[IndexOf(url, ':') + 1..] else url;
    var netloc := if StartsWith(rest, "//") then Authority(rest[2..]) else "";
    if netloc != "" then
      SuffixContains(url, rest, "//");
      UrlParts(scheme, netloc)
    else
      UrlParts(scheme, netloc)
  }

  /** `urlparse(url).netloc`. */
  function Netloc(url: string): (host: string)
    ensures host != "" ==> Contains(url, "//")
    ensures forall k :: 0 <= k < |host| ==> !EndsAuthority(host[k])
  {
    Parse(url).netloc
  }

  /** `'{uri.scheme}://{uri.netloc}'.format(uri=urlparse(url))`. */
  function SchemeAndHost(url: string): string {
    Parse(url).scheme + "://" + Parse(url).netloc
  }

  lemma {:induction false} SuffixContains(s: string, t: string, p: string)
    requires |t| <= |s| && s[|s| - |t|..] == t
    requires StartsWith(t, p)
    ensures Contains(s, p)
    decreases |s|
  {
    if |t| < |s| {
      assert s[1..][|s[1..]| - |t|..] == t;
      SuffixContains(s[1..], t, p);
    }
  }

  /** A url that starts with a lower-case scheme and `://` parses into that
      scheme and the authority prefix of the rest. */
  lemma ParseWithScheme(scheme: string, rest: string)
    requires IsScheme(scheme) && Lower(scheme) == scheme
    ensures Parse(scheme + "://" + rest) == UrlParts(scheme, Authority(rest))
  {
    var url := scheme + "://" + rest;
    var n := |scheme|;
    assert url[n] == ':';
    assert url[..n] == scheme;
    assert ':' !in scheme by {
      forall k | 0 <= k < n ensures scheme[k] != ':' {
        assert IsSchemeChar(scheme[k]);
      }
    }
    IndexOfUnique(url, ':', n);
    assert IndexOf(url, ':') == n;
    var after := url[n + 1..];
    assert after == "//" + rest;
    assert StartsWith(after, "//") && after[2..] == rest;
  }

  /** The scheme `sceneScraperURLs` puts in front of a scraper url. */
  const Https := "https"

  lemma HttpsIsScheme()
    ensures IsScheme(Https) && Lower(Https) == Https
  {
  }

  /** The network location of `https://` followed by `u` is the authority
      prefix of `u`; in particular a bare host name is its own network
      location. */
  lemma NetlocOfHttps(u: string)
    ensures Netloc(Https + "://" + u) == Authority(u)
    ensures Parse(Https + "://" + u).scheme == Https
    ensures (forall k :: 0 <= k < |u| ==> !EndsAuthority(u[k])) ==> Netloc(Https + "://" + u) == u
  {
    HttpsIsScheme();
    ParseWithScheme(Https, u);
    if forall k :: 0 <= k < |u| ==> !EndsAuthority(u[k]) {
      AuthorityOfClean(u);
    }
  }

  lemma {:induction false} AuthorityOfClean(u: string)
    requires forall k :: 0 <= k < |u| ==> !EndsAuthority(u[k])
    ensures Authority(u) == u
  {
    if |u| > 0 {
      AuthorityOfClean(u[1..]);
    }
  }

  /** The authority of a clean host followed by a path, query or fragment
      is the host. */
  lemma {:induction false} AuthorityOfHost(host: string, tail: string)
    requires forall k :: 0 <= k < |host| ==> !EndsAuthority(host[k])
    requires tail == "" || EndsAuthority(tail[0])
    ensures Authority(host + tail) == host
    decreases |host|
  {
    if |host| > 0 {
      assert (host + tail)[1..] == host[1..] + tail;
      AuthorityOfHost(host[1..], tail);
    } else {
      assert host + tail == tail;
    }
  }

  /** A url built from a lower-case scheme, a host free of `/`, `?` and
      `#`, and a path, query or fragment parses back into that scheme and
      host, so the studio url taken from it is `scheme://host`. */
  lemma ParseBuilt(scheme: string, host: string, tail: string)
    requires IsScheme(scheme) && Lower(scheme) == scheme
    requires forall k :: 0 <= k < |host| ==> !EndsAuthority(host[k])
    requires tail == "" || EndsAuthority(tail[0])
    ensures Parse(scheme + "://" + host + tail) == UrlParts(scheme, host)
    ensures SchemeAndHost(scheme + "://" + host + tail) == scheme + "://" + host
  {
    assert scheme + "://" + host + tail == scheme + "://" + (host + tail);
    ParseWithScheme(scheme, host + tail);
    AuthorityOfHost(host, tail);
  }
}

=== FILE: url_scrape.dfy ===
/** The URL-scrape-and-merge strategy (`__bulk_scrape`): scrape every tagged
    scene by its url and merge what the scraper found into one update. */
module UrlScrape {
  import opened Base
  import opened Text
  import opened Url
  import opened Remote
  import opened Batch

  /** The three `create_missing_*` switches. */
  datatype Flags = Flags(createPerformers: bool, createTags: bool, createStudios: bool)

  /** A scraped tag, performer or studio: its name and, when the server
      already knows it, its `stored_id`. */
  datatype ScrapedItem = ScrapedItem(name: string, storedId: Option<Id>)

  /** The result of `scrapeSceneURL`; an empty string or list stands for a
      missing or null value. */
  datatype ScrapedScene = ScrapedScene(
    title: string,
    details: string,
    date: string,
    url: string,
    image: string,
    tags: seq<ScrapedItem>,
    performers: seq<ScrapedItem>,
    studio: Option<ScrapedItem>)

  /** `any(scraped_data.values())`. */
  predicate HasData(d: ScrapedScene): (b: bool)
    ensures !b <==> d == ScrapedScene("", "", "", "", "", [], [], None)
  {
    d.title != "" || d.details != "" || d.date != "" || d.url != "" || d.image != ""
    || |d.tags| > 0 || |d.performers| > 0 || d.studio.Some?
  }

  /** A text key of the update: present only when the scraped value is truthy. */
  function IfTruthy(s: string): (r: Option<string>)
    ensures r.Some? <==> s != ""
    ensures r.Some? ==> r.value == s
  {
    if s == "" then None else Some(s)
  }

  /** A list key of the update: present only when the list is non-empty. */
  function IfNonEmpty(ids: seq<Id>): (r: Option<seq<Id>>)
    ensures r.Some? <==> |ids| > 0
    ensures r.Some? ==> r.value == ids
  {
    if |ids| == 0 then None else Some(ids)
  }

  // ---------------------------------------------------------------------
  // Resolving scraped tags and performers to ids
  // ---------------------------------------------------------------------

  /** The stored ids of the scraped items, in order. */
  function StoredIds(items: seq<ScrapedItem>): seq<Id> {
    if |items| == 0 then []
    else if items[0].storedId.Some? then [items[0].storedId.value] + StoredIds(items[1..])
    else StoredIds(items[1..])
  }

  /** The names the strategy creates: items without a stored id and with a
      non-empty name, and only when creation is switched on. */
  function CreatedNames(items: seq<ScrapedItem>, create: bool): seq<string> {
    if |items| == 0 || !create then []
    else if items[0].storedId.None? && items[0].name != "" then [items[0].name] + CreatedNames(items[1..], create)
    else CreatedNames(items[1..], create)
  }

  /** The `n` consecutive ids from `base`. */
  function Block(base: Id, n: nat): (r: seq<Id>)
    ensures |r| == n
    ensures forall k :: 0 <= k < n ==> r[k] == base + k
    decreases n
  {
    if n == 0 then [] else [base] + Block(base + 1, n - 1)
  }

  /** The ids the loop over scraped items collects, computed without the
      server: a stored id passes through, each created name takes the next
      id from `base` on, and any other item adds nothing. */
  function Collected(items: seq<ScrapedItem>, create: bool, base: Id): seq<Id>
    decreases |items|
  {
    if |items| == 0 then []
    else if items[0].storedId.Some? then [items[0].storedId.value] + Collected(items[1..], create, base)
    else if create && items[0].name != "" then [base] + Collected(items[1..], create, base + 1)
    else Collected(items[1..], create, base)
  }

  /** The collected ids are, as a multiset, exactly the stored ids plus one
      fresh id per created name, consecutive from `base`. */
  lemma {:induction false} CollectedCounts(items: seq<ScrapedItem>, create: bool, base: Id)
    ensures multiset(Collected(items, create, base))
         == multiset(StoredIds(items)) + multiset(Block(base, |CreatedNames(items, create)|))
    decreases |items|
  {
    if |items| > 0 {
      var rest := items[1..];
      if items[0].storedId.Some? {
        CollectedCounts(rest, create, base);
        assert CreatedNames(items, create) == CreatedNames(rest, create);
      } else if create && items[0].name != "" {
        CollectedCounts(rest, create, base + 1);
        var m := |CreatedNames(rest, create)|;
        assert |CreatedNames(items, create)| == m + 1;
        assert Block(base, m + 1) == [base] + Block(base + 1, m);
      } else {
        CollectedCounts(rest, create, base);
        assert CreatedNames(items, create) == CreatedNames(rest, create);
      }
    }
  }

  /** The entities the server stores for `names`, title-cased, under the
      consecutive ids from `base`. */
  function NewEntities(base: Id, names: seq<string>): (r: seq<Entity>)
    ensures |r| == |names|
  {
    seq(|names|, i requires 0 <= i < |names| => Entity(base + i, TitleCase(names[i]), "", ""))
  }

  /** The server after creating the tags `tags` and then the performers
      `performers`, each from the next free id. */
  function Grown(s: State, tags: seq<string>, performers: seq<string>): State {
    s.(tags := s.tags + NewEntities(s.nextId, tags),
       performers := s.performers + NewEntities(s.nextId + |tags|, performers),
       nextId := s.nextId + |tags| + |performers|)
  }

  /** The new entities carry exactly the ids from `base` on. */
  lemma NewEntitiesIds(base: Id, names: seq<string>)
    ensures forall e :: e in NewEntities(base, names) ==> base <= e.id < base + |names|
  {
    var xs := NewEntities(base, names);
    forall e | e in xs ensures base <= e.id < base + |names| {
      var i :| 0 <= i < |xs| && xs[i] == e;
    }
  }

  /** Creating tags and performers appends to those two stores only. */
  lemma GrownStores(s: State, tags: seq<string>, performers: seq<string>)
    ensures var g := Grown(s, tags, performers);
      && g.tags == s.tags + NewEntities(s.nextId, tags)
      && |g.performers| == |s.performers| + |performers| && s.performers <= g.performers
      && g.studios == s.studios && g.updates == s.updates
    ensures |tags| == 0 && |performers| == 0 ==> Grown(s, tags, performers) == s
  {
    if |tags| == 0 && |performers| == 0 {
      assert s.tags + NewEntities(s.nextId, tags) == s.tags;
      assert s.performers + NewEntities(s.nextId + |tags|, performers) == s.performers;
    }
  }

  /** Creating tags and performers keeps every stored id below the counter. */
  lemma GrownFresh(s: State, tags: seq<string>, performers: seq<string>)
    requires Fresh(s)
    ensures Fresh(Grown(s, tags, performers))
  {
    var g := Grown(s, tags, performers);
    NewEntitiesIds(s.nextId, tags);
    NewEntitiesIds(s.nextId + |tags|, performers);
    forall k: Kind, e | e in g.Store(k) ensures e.id < g.nextId {
      assert e in s.Store(k) || e in NewEntities(s.nextId, tags) || e in NewEntities(s.nextId + |tags|, performers);
    }
  }

  /** Creating the tags and then, from the id after them, the performers. */
  lemma GrowBoth(s: State, t: State, u: State, tags: seq<string>, performers: seq<string>)
    requires t == s.(tags := s.tags + NewEntities(s.nextId, tags), nextId := s.nextId + |tags|)
    requires u == t.(performers := t.performers + NewEntities(t.nextId, performers), nextId := t.nextId + |performers|)
    ensures u == Grown(s, tags, performers)
  {}

  lemma NewEntitiesCons(base: Id, name: string, names: seq<string>)
    ensures NewEntities(base, [name] + names) == [Entity(base, TitleCase(name), "", "")] + NewEntities(base + 1, names)
  {
    var l, r := NewEntities(base, [name] + names), [Entity(base, TitleCase(name), "", "")] + NewEntities(base + 1, names);
    assert |l| == |r|;
    forall i | 0 <= i < |l| ensures l[i] == r[i] {
      if i > 0 {
        assert ([name] + names)[i] == names[i - 1];
      }
    }
  }

  /** The loop over `scraped_data.get('tags')` (or `'performers'`): a stored id
      passes through; otherwise, when creation is on and the name is not
      empty, the title-cased name is created and its new id collected. */
  function Resolve(s: State, kind: Kind, items: seq<ScrapedItem>, create: bool): (r: (State, seq<Id>))
    ensures |r.1| <= |items|
    ensures s.nextId <= r.0.nextId
    ensures !create ==> r.0 == s
    decreases |items|
  {
    if |items| == 0 then (s, [])
    else
      var item := items[0];
      if item.storedId.Some? then
        var rest := Resolve(s, kind, items[1..], create);
        (rest.0, [item.storedId.value] + rest.1)
      else if create && item.name != "" then
        var created := Create(s, kind, TitleCase(item.name), "");
        var rest := Resolve(created.0, kind, items[1..], create);
        (rest.0, [created.1] + rest.1)
      else
        Resolve(s, kind, items[1..], create)
  }

  /** Resolving touches no other store, sends no update, and draws one
      fresh id per created name. */
  lemma {:induction false} ResolveKeepsRest(s: State, kind: Kind, items: seq<ScrapedItem>, create: bool)
    ensures var r := Resolve(s, kind, items, create);
      && (forall k :: k != kind ==> r.0.Store(k) == s.Store(k))
      && r.0.updates == s.updates
      && r.0.nextId == s.nextId + |CreatedNames(items, create)|
    decreases |items|
  {
    if |items| > 0 {
      var item := items[0];
      if item.storedId.Some? {
        ResolveKeepsRest(s, kind, items[1..], create);
      } else if create && item.name != "" {
        var created := Create(s, kind, TitleCase(item.name), "");
        ResolveKeepsRest(created.0, kind, items[1..], create);
      } else {
        ResolveKeepsRest(s, kind, items[1..], create);
      }
    }
  }

  /** Resolving grows the store of `kind` by exactly the title-cased created
      names, in order, under consecutive fresh ids. */
  lemma {:induction false} ResolveGrowsStore(s: State, kind: Kind, items: seq<ScrapedItem>, create: bool)
    ensures Resolve(s, kind, items, create).0.Store(kind)
         == s.Store(kind) + NewEntities(s.nextId, CreatedNames(items, create))
    decreases |items|
  {
    if |items| > 0 {
      var item := items[0];
      var tail := items[1..];
      if item.storedId.Some? {
        ResolveGrowsStore(s, kind, tail, create);
      } else if create && item.name != "" {
        var s1 := Create(s, kind, TitleCase(item.name), "").0;
        ResolveGrowsStore(s1, kind, tail, create);
        GrowsStoreByCreation(s, kind, items, create);
      } else {
        ResolveGrowsStore(s, kind, tail, create);
      }
    }
  }

  /** The inductive step of `ResolveGrowsStore` for an item that is created. */
  lemma GrowsStoreByCreation(s: State, kind: Kind, items: seq<ScrapedItem>, create: bool)
    requires |items| > 0 && items[0].storedId.None? && create && items[0].name != ""
    requires var s1 := Create(s, kind, TitleCase(items[0].name), "").0;
      Resolve(s1, kind, items[1..], create).0.Store(kind)
        == s1.Store(kind) + NewEntities(s1.nextId, CreatedNames(items[1..], create))
    ensures Resolve(s, kind, items, create).0.Store(kind)
         == s.Store(kind) + NewEntities(s.nextId, CreatedNames(items, create))
  {
    var name := items[0].name;
    var s1 := Create(s, kind, TitleCase(name), "").0;
    var names := CreatedNames(items[1..], create);
    assert CreatedNames(items, create) == [name] + names;
    ResolveCreating(s, kind, items, create);
    assert s1.Store(kind) == s.Store(kind) + [Entity(s.nextId, TitleCase(name), "", "")] && s1.nextId == s.nextId + 1;
    AppendCreated(s.Store(kind), s.nextId, name, names);
  }

  /** An item to create: the rest is resolved after creating it. */
  lemma ResolveCreating(s: State, kind: Kind, items: seq<ScrapedItem>, create: bool)
    requires |items| > 0 && items[0].storedId.None? && create && items[0].name != ""
    ensures Resolve(s, kind, items, create).0
         == Resolve(Create(s, kind, TitleCase(items[0].name), "").0, kind, items[1..], create).0
  {
  }

  /** Appending one created entity and then the rest is appending them all. */
  lemma AppendCreated(a: seq<Entity>, base: Id, name: string, names: seq<string>)
    ensures (a + [Entity(base, TitleCase(name), "", "")]) + NewEntities(base + 1, names)
         == a + NewEntities(base, [name] + names)
  {
    NewEntitiesCons(base, name, names);
  }

  /** The collected ids are the stored ids, each passed through verbatim,
      plus one fresh id per created name: nothing else. */
  lemma {:induction false} ResolveIds(s: State, kind: Kind, items: seq<ScrapedItem>, create: bool)
    ensures var r := Resolve(s, kind, items, create);
      && |r.1| == |StoredIds(items)| + |CreatedNames(items, create)|
      && multiset(StoredIds(items)) <= multiset(r.1)
      && forall id :: id in r.1 ==> id in StoredIds(items) || s.nextId <= id < r.0.nextId
    decreases |items|
  {
    if |items| > 0 {
      var item := items[0];
      if item.storedId.Some? {
        ResolveIds(s, kind, items[1..], create);
      } else if create && item.name != "" {
        var created := Create(s, kind, TitleCase(item.name), "");
        ResolveIds(created.0, kind, items[1..], create);
        ResolveKeepsRest(created.0, kind, items[1..], create);
      } else {
        ResolveIds(s, kind, items[1..], create);
      }
    }
  }

  /** The ids `Resolve` collects are the server-free `Collected` from the
      counter on, in order: each created name gets the next fresh id. */
  lemma {:induction false} ResolveCollected(s: State, kind: Kind, items: seq<ScrapedItem>, create: bool)
    ensures Resolve(s, kind, items, create).1 == Collected(items, create, s.nextId)
    decreases |items|
  {
    if |items| > 0 {
      var item := items[0];
      if item.storedId.Some? {
        ResolveCollected(s, kind, items[1..], create);
        assert Resolve(s, kind, items, create).1 == [item.storedId.value] + Resolve(s, kind, items[1..], create).1;
      } else if create && item.name != "" {
        var created := Create(s, kind, TitleCase(item.name), "");
        ResolveCollected(created.0, kind, items[1..], create);
        assert created.1 == s.nextId && created.0.nextId == s.nextId + 1;
        assert Resolve(s, kind, items, create).1 == [created.1] + Resolve(created.0, kind, items[1..], create).1;
      } else {
        ResolveCollected(s, kind, items[1..], create);
      }
    }
  }

  /** The ids `Resolve` collects are exactly the server-free list, and, as a
      multiset, the stored ids plus the fresh ids from the counter on, one
      per created name. */
  lemma ResolveDrawn(s: State, kind: Kind, items: seq<ScrapedItem>, create: bool)
    ensures Resolve(s, kind, items, create).1 == Collected(items, create, s.nextId)
    ensures Drawn(Resolve(s, kind, items, create).1, items, s.nextId, |CreatedNames(items, create)|)
  {
    ResolveCollected(s, kind, items, create);
    CollectedDrawn(items, create, s.nextId);
  }

  /** With creation switched off the server is untouched and exactly the
      stored ids are collected, in order. */
  lemma {:induction false} ResolveWithoutCreation(s: State, kind: Kind, items: seq<ScrapedItem>)
    ensures Resolve(s, kind, items, false) == (s, StoredIds(items))
    decreases |items|
  {
    if |items| > 0 {
      ResolveWithoutCreation(s, kind, items[1..]);
    }
  }

  /** Everything the resolution lemmas state, in one call. */
  lemma ResolveFacts(s: State, kind: Kind, items: seq<ScrapedItem>, create: bool)
    ensures var r := Resolve(s, kind, items, create);
      && r.0.Store(kind) == s.Store(kind) + NewEntities(s.nextId, CreatedNames(items, create))
      && (forall k :: k != kind ==> r.0.Store(k) == s.Store(k))
      && r.0.updates == s.updates
      && r.0.nextId == s.nextId + |CreatedNames(items, create)|
      && |r.1| == |StoredIds(items)| + |CreatedNames(items, create)|
      && multiset(StoredIds(items)) <= multiset(r.1)
      && forall id :: id in r.1 ==> id in StoredIds(items) || s.nextId <= id < r.0.nextId
    ensures Resolve(s, kind, items, create).1 == Collected(items, create, s.nextId)
    ensures !create ==> Resolve(s, kind, items, create) == (s, StoredIds(items))
    ensures |items| == 0 ==> Resolve(s, kind, items, create) == (s, [])
  {
    ResolveKeepsRest(s, kind, items, create);
    ResolveGrowsStore(s, kind, items, create);
    ResolveIds(s, kind, items, create);
    ResolveCollected(s, kind, items, create);
    if !create {
      ResolveWithoutCreation(s, kind, items);
    }
  }

  /** The scraped studio: a stored id passes through; otherwise, when studio
      creation is on, a studio named by the title-cased name and with url
      `scheme://netloc` of the scene's url is created. */
  function ResolveStudio(s: State, studio: Option<ScrapedItem>, create: bool, sceneUrl: string): (r: (State, Option<Id>))
    ensures studio.None? ==> r == (s, None)
    ensures studio.Some? && studio.value.storedId.Some? ==> r == (s, studio.value.storedId)
    ensures studio.Some? && studio.value.storedId.None? && !create ==> r == (s, None)
    ensures studio.None? || studio.value.storedId.Some? || !create ==> r.0 == s
    ensures studio.Some? && studio.value.storedId.None? && create ==>
      && r.0 == Create(s, StudioKind, TitleCase(studio.value.name), SchemeAndHost(sceneUrl)).0
      && r.1 == Some(s.nextId)
      && r.0.studios == s.studios + [Entity(s.nextId, TitleCase(studio.value.name), "", SchemeAndHost(sceneUrl))]
      && r.0.tags == s.tags && r.0.performers == s.performers
      && r.0.updates == s.updates && r.0.nextId == s.nextId + 1
  {
    match studio
    case None => (s, None)
    case Some(st) =>
      if st.storedId.Some? then (s, st.storedId)
      else if create then
        var created := Create(s, StudioKind, TitleCase(st.name), SchemeAndHost(sceneUrl));
        (created.0, Some(created.1))
      else (s, None)
  }

  /** `scraped_data.get('tags')` (or `'performers'`) resolved to ids: a
      non-empty list goes through `Resolve`, an empty one collects nothing. */
  function ResolveList(s: State, kind: Kind, items: seq<ScrapedItem>, create: bool): (r: (State, seq<Id>))
    ensures r.0.Store(kind) == s.Store(kind) + NewEntities(s.nextId, CreatedNames(items, create))
    ensures forall k :: k != kind ==> r.0.Store(k) == s.Store(k)
    ensures r.0.updates == s.updates
    ensures r.0.nextId == s.nextId + |CreatedNames(items, create)|
    ensures |r.1| == |StoredIds(items)| + |CreatedNames(items, create)|
    ensures r.1 == Collected(items, create, s.nextId)
    ensures !create ==> r == (s, StoredIds(items))
  {
    ResolveFacts(s, kind, items, create);
    if |items| > 0 then Resolve(s, kind, items, create) else (s, [])
  }

  /** The text keys of the update: seeded with the scene id, each copied
      when truthy, `image` as `cover_image`. */
  function TextKeys(sceneId: Id, d: ScrapedScene): (p: Payload)
    ensures p.id == sceneId && p.url.None?
    ensures p.title.Some? <==> d.title != ""
    ensures p.title.Some? ==> p.title.value == d.title
    ensures p.details.Some? <==> d.details != ""
    ensures p.details.Some? ==> p.details.value == d.details
    ensures p.date.Some? <==> d.date != ""
    ensures p.date.Some? ==> p.date.value == d.date
    ensures p.coverImage.Some? <==> d.image != ""
    ensures p.coverImage.Some? ==> p.coverImage.value == d.image
  {
    Seed(sceneId).(title := IfTruthy(d.title), details := IfTruthy(d.details), date := IfTruthy(d.date),
                   coverImage := IfTruthy(d.image))
  }

  /** `ids` resolves `items` when `n` of them were created from id `base`
      on: as a multiset, exactly the stored ids plus the `n` fresh ids from
      `base`, so no other id appears and none stands in for another. */
  predicate Drawn(ids: seq<Id>, items: seq<ScrapedItem>, base: nat, n: nat) {
    multiset(ids) == multiset(StoredIds(items)) + multiset(Block(base, n))
  }

  /** A drawn list has one entry per stored id and per fresh id, keeps
      every stored id, and holds no id outside the stored ones and the
      fresh block. */
  lemma DrawnBounds(ids: seq<Id>, items: seq<ScrapedItem>, base: nat, n: nat)
    requires Drawn(ids, items, base, n)
    ensures |ids| == |StoredIds(items)| + n
    ensures multiset(StoredIds(items)) <= multiset(ids)
    ensures forall id :: id in ids ==> id in StoredIds(items) || base <= id < base + n
  {
    var block := Block(base, n);
    assert |ids| == |multiset(ids)| == |StoredIds(items)| + |block|;
    forall id | id in ids
      ensures id in StoredIds(items) || base <= id < base + n
    {
      assert id in multiset(ids);
      if id !in StoredIds(items) {
        assert id in multiset(block);
        var k :| 0 <= k < |block| && block[k] == id;
      }
    }
  }

  /** `scraped_data.get('tags')` and then `'performers'` resolved to ids:
      created tags draw the first fresh ids, created performers the next
      ones; studios and updates are left alone. */
  function ResolveItems(flags: Flags, s: State, d: ScrapedScene): (r: (State, seq<Id>, seq<Id>))
    ensures r.0 == Grown(s, CreatedNames(d.tags, flags.createTags), CreatedNames(d.performers, flags.createPerformers))
    ensures r.1 == Collected(d.tags, flags.createTags, s.nextId)
    ensures r.2 == Collected(d.performers, flags.createPerformers, s.nextId + |CreatedNames(d.tags, flags.createTags)|)
  {
    var tagged := ResolveTags(s, d.tags, flags.createTags);
    var performed := ResolvePerformers(tagged.0, d.performers, flags.createPerformers);
    CollectedAfter(tagged.0, s.nextId, |CreatedNames(d.tags, flags.createTags)|, d.performers, flags.createPerformers);
    GrowBoth(s, tagged.0, performed.0, CreatedNames(d.tags, flags.createTags),
             CreatedNames(d.performers, flags.createPerformers));
    (performed.0, tagged.1, performed.1)
  }

  /** Performers resolved after `n` tag creations collect their ids from
      the counter as it stood before them, plus `n`. */
  lemma CollectedAfter(t: State, start: Id, n: nat, items: seq<ScrapedItem>, create: bool)
    requires t.nextId == start + n
    ensures ResolvePerformers(t, items, create).1 == Collected(items, create, start + n)
  {
  }

  /** `ResolveList` on the tags: the tag store and the id counter grow,
      nothing else changes. */
  function ResolveTags(s: State, items: seq<ScrapedItem>, create: bool): (r: (State, seq<Id>))
    ensures r.0 == s.(tags := s.tags + NewEntities(s.nextId, CreatedNames(items, create)),
                      nextId := s.nextId + |CreatedNames(items, create)|)
    ensures r.1 == Collected(items, create, s.nextId)
  {
    var r := ResolveList(s, TagKind, items, create);
    assert r.0.Store(PerformerKind) == s.Store(PerformerKind) && r.0.Store(StudioKind) == s.Store(StudioKind);
    r
  }

  /** `ResolveList` on the performers: the performer store and the id
      counter grow, nothing else changes. */
  function ResolvePerformers(s: State, items: seq<ScrapedItem>, create: bool): (r: (State, seq<Id>))
    ensures r.0 == s.(performers := s.performers + NewEntities(s.nextId, CreatedNames(items, create)),
                      nextId := s.nextId + |CreatedNames(items, create)|)
    ensures r.1 == Collected(items, create, s.nextId)
  {
    var r := ResolveList(s, PerformerKind, items, create);
    assert r.0.Store(TagKind) == s.Store(TagKind) && r.0.Store(StudioKind) == s.Store(StudioKind);
    r
  }

  /** The collected ids are drawn: the stored ids plus the block of fresh
      ids from `base`, one per created name, and nothing else. */
  lemma CollectedDrawn(items: seq<ScrapedItem>, create: bool, base: Id)
    ensures Drawn(Collected(items, create, base), items, base, |CreatedNames(items, create)|)
  {
    CollectedCounts(items, create, base);
  }

  /** The scrape names a studio the server lacks, and studios may be created. */
  predicate StudioCreated(flags: Flags, d: ScrapedScene) {
    d.studio.Some? && d.studio.value.storedId.None? && flags.createStudios
  }

  /** The update built from one scrape result: seeded with the scene id,
      text keys copied when truthy (`image` as `cover_image`), tag and
      performer id lists present only when non-empty, the studio id when one
      was resolved. Creating entities is the only change to the server. */
  function BuildPayload(flags: Flags, s: State, sceneId: Id, sceneUrl: string, d: ScrapedScene): (r: (State, Payload))
    ensures r.1.(tagIds := None, performerIds := None, studioId := None) == TextKeys(sceneId, d)
    // the tag ids: every stored id plus one fresh id per created tag, nothing else
    ensures r.1.tagIds == IfNonEmpty(Collected(d.tags, flags.createTags, s.nextId))
    ensures r.1.tagIds.Some? <==> |StoredIds(d.tags)| + |CreatedNames(d.tags, flags.createTags)| > 0
    // the performer ids: every stored id plus the fresh ids drawn after the tags'
    ensures r.1.performerIds
         == IfNonEmpty(Collected(d.performers, flags.createPerformers, s.nextId + |CreatedNames(d.tags, flags.createTags)|))
    ensures r.1.performerIds.Some? <==> |StoredIds(d.performers)| + |CreatedNames(d.performers, flags.createPerformers)| > 0
    // the studio: a stored id is copied, a created studio's fresh id is used
    ensures d.studio.Some? && d.studio.value.storedId.Some? ==> r.1.studioId == d.studio.value.storedId
    ensures d.studio.None? || (d.studio.value.storedId.None? && !flags.createStudios) ==>
      r.1.studioId.None? && r.0.studios == s.studios
    // the server: the created tags, then the created performers, then the created studio
    ensures !StudioCreated(flags, d) ==>
      r.0 == Grown(s, CreatedNames(d.tags, flags.createTags), CreatedNames(d.performers, flags.createPerformers))
    ensures StudioCreated(flags, d) ==>
      var g := Grown(s, CreatedNames(d.tags, flags.createTags), CreatedNames(d.performers, flags.createPerformers));
      && r.1.studioId == Some(g.nextId)
      && r.0 == Create(g, StudioKind, TitleCase(d.studio.value.name), SchemeAndHost(sceneUrl)).0
    ensures r.0.tags == s.tags + NewEntities(s.nextId, CreatedNames(d.tags, flags.createTags))
    ensures |r.0.performers| == |s.performers| + |CreatedNames(d.performers, flags.createPerformers)|
    ensures s.performers <= r.0.performers && s.studios <= r.0.studios
    ensures r.0.updates == s.updates
    ensures !flags.createTags && !flags.createPerformers && !flags.createStudios ==> r.0 == s
  {
    var items := ResolveItems(flags, s, d);
    var server := ResolveServer(flags, s, d, sceneUrl);
    ResolveServerStores(flags, s, d, sceneUrl);
    var p := TextKeys(sceneId, d).(tagIds := IfNonEmpty(items.1), performerIds := IfNonEmpty(items.2),
                                   studioId := server.1);
    (server.0, p)
  }

  /** The server side of one scrape result: the created tags, then the
      created performers, then the created studio; and the studio id. */
  function ResolveServer(flags: Flags, s: State, d: ScrapedScene, sceneUrl: string): (r: (State, Option<Id>))
    ensures d.studio.Some? && d.studio.value.storedId.Some? ==> r.1 == d.studio.value.storedId
    ensures d.studio.None? || (d.studio.value.storedId.None? && !flags.createStudios) ==>
      r.1.None? && r.0.studios == s.studios
    ensures !StudioCreated(flags, d) ==>
      r.0 == Grown(s, CreatedNames(d.tags, flags.createTags), CreatedNames(d.performers, flags.createPerformers))
    ensures StudioCreated(flags, d) ==>
      var g := Grown(s, CreatedNames(d.tags, flags.createTags), CreatedNames(d.performers, flags.createPerformers));
      && r.1 == Some(g.nextId)
      && r.0 == Create(g, StudioKind, TitleCase(d.studio.value.name), SchemeAndHost(sceneUrl)).0
  {
    var items := ResolveItems(flags, s, d);
    ResolveStudio(items.0, d.studio, flags.createStudios, sceneUrl)
  }

  /** Store by store: the tag store grows by the created tags, the performer
      store by the created performers, the studio store keeps its prefix; no
      update is sent; with every creation switched off nothing changes. */
  lemma ResolveServerStores(flags: Flags, s: State, d: ScrapedScene, sceneUrl: string)
    ensures var r := ResolveServer(flags, s, d, sceneUrl);
      && r.0.tags == s.tags + NewEntities(s.nextId, CreatedNames(d.tags, flags.createTags))
      && |r.0.performers| == |s.performers| + |CreatedNames(d.performers, flags.createPerformers)|
      && s.performers <= r.0.performers && s.studios <= r.0.studios
      && r.0.updates == s.updates
    ensures !flags.createTags && !flags.createPerformers && !flags.createStudios ==>
      ResolveServer(flags, s, d, sceneUrl).0 == s
  {
    var ct, cp := CreatedNames(d.tags, flags.createTags), CreatedNames(d.performers, flags.createPerformers);
    GrownStores(s, ct, cp);
    if StudioCreated(flags, d) {
      CreatedStudio(Grown(s, ct, cp), TitleCase(d.studio.value.name), SchemeAndHost(sceneUrl));
    }
  }

  /** Creating a studio leaves the other stores and the updates alone. */
  lemma CreatedStudio(s: State, name: string, url: string)
    ensures var c := Create(s, StudioKind, name, url).0;
      c.tags == s.tags && c.performers == s.performers && c.updates == s.updates && s.studios <= c.studios
  {
    var c := Create(s, StudioKind, name, url).0;
    assert c.Store(TagKind) == s.Store(TagKind) && c.Store(PerformerKind) == s.Store(PerformerKind);
  }

  /** An id list sent only when non-empty is, when sent, drawn. */
  lemma SentDrawn(ids: Option<seq<Id>>, items: seq<ScrapedItem>, create: bool, base: Id)
    requires ids == IfNonEmpty(Collected(items, create, base))
    ensures ids.Some? ==> Drawn(ids.value, items, base, |CreatedNames(items, create)|)
  {
    CollectedDrawn(items, create, base);
  }

  /** The id lists of the update, which `BuildPayload` ensures are the
      `Collected` lists: every stored id plus one fresh id per created name,
      the tags drawing the first fresh ids and the performers the next ones;
      no other id appears. */
  lemma BuildPayloadIds(p: Payload, flags: Flags, s: State, d: ScrapedScene)
    requires p.tagIds == IfNonEmpty(Collected(d.tags, flags.createTags, s.nextId))
    requires p.performerIds
          == IfNonEmpty(Collected(d.performers, flags.createPerformers, s.nextId + |CreatedNames(d.tags, flags.createTags)|))
    ensures p.tagIds.Some? ==> Drawn(p.tagIds.value, d.tags, s.nextId, |CreatedNames(d.tags, flags.createTags)|)
    ensures p.performerIds.Some? ==>
      Drawn(p.performerIds.value, d.performers, s.nextId + |CreatedNames(d.tags, flags.createTags)|,
            |CreatedNames(d.performers, flags.createPerformers)|)
  {
    SentDrawn(p.tagIds, d.tags, flags.createTags, s.nextId);
    SentDrawn(p.performerIds, d.performers, flags.createPerformers, s.nextId + |CreatedNames(d.tags, flags.createTags)|);
  }

  /** The stores whose creation switch is off are left as they were. */
  predicate KeepsUnflagged(flags: Flags, a: State, b: State) {
    && (!flags.createTags ==> b.tags == a.tags)
    && (!flags.createPerformers ==> b.performers == a.performers)
    && (!flags.createStudios ==> b.studios == a.studios)
  }

  /** A store is only written when its creation switch is on. */
  lemma BuildPayloadKeeps(flags: Flags, s: State, sceneId: Id, sceneUrl: string, d: ScrapedScene)
    ensures KeepsUnflagged(flags, s, BuildPayload(flags, s, sceneId, sceneUrl, d).0)
  {
    assert !flags.createTags ==> CreatedNames(d.tags, flags.createTags) == [];
    assert !flags.createPerformers ==> CreatedNames(d.performers, flags.createPerformers) == [];
  }

  // ---------------------------------------------------------------------
  // The loop
  // ---------------------------------------------------------------------

  /** No host occurs twice. */
  predicate NoDuplicates(hosts: seq<string>) {
    forall i, j :: 0 <= i < j < |hosts| ==> hosts[i] != hosts[j]
  }

  /** A scene is skipped before any request when it has no url or its host
      is known to have no scraper. */
  predicate Skipped(run: Run, scene: Scene) {
    scene.url.None? || scene.url.value == "" || Netloc(scene.url.value) in run.missing
  }

  /** One iteration of the loop of `__bulk_scrape`. */
  function ScrapeStep(flags: Flags, delay: int, clock: Clock, scrape: string -> Option<ScrapedScene>,
                      run: Run, scene: Scene): (r: Run)
    // skipped scenes: no request, no update, no count, no pause
    ensures Skipped(run, scene) ==> r == run
    // a request is made for every other scene, after a throttle point
    ensures !Skipped(run, scene) ==> r.requests == run.requests + [scene.url.value]
    ensures Skipped(run, scene) || delay == 0 <==> r.sleeps == run.sleeps
    ensures |r.sleeps| - |run.sleeps| == if delay == 0 then 0 else |r.requests| - |run.requests|
    // a null result marks the host; an empty result changes nothing else
    ensures !Skipped(run, scene) && scrape(scene.url.value).None? ==>
      r.missing == run.missing + [Netloc(scene.url.value)] && r.state == run.state && r.count == run.count
    ensures !Skipped(run, scene) && scrape(scene.url.value).Some? && !HasData(scrape(scene.url.value).value) ==>
      r.missing == run.missing && r.state == run.state && r.count == run.count
    // a result with data is counted, its entities are created, and the
    // payload built from it is sent back
    ensures !Skipped(run, scene) && scrape(scene.url.value).Some? && HasData(scrape(scene.url.value).value) ==>
      var built := BuildPayload(flags, run.state, scene.id, scene.url.value, scrape(scene.url.value).value);
      && r.missing == run.missing && r.count == run.count + 1
      && r.state == UpdateScene(built.0, built.1)
      && r.state.updates == run.state.updates + [built.1]
    ensures Paced(delay, clock, run.sleeps) ==> Paced(delay, clock, r.sleeps)
    ensures run.requests <= r.requests && |r.requests| <= |run.requests| + 1
    ensures |r.requests| == |run.requests| + 1 ==> Netloc(r.requests[|run.requests|]) !in run.missing
    ensures run.missing <= r.missing && |r.missing| <= |run.missing| + 1
    ensures NoDuplicates(run.missing) ==> NoDuplicates(r.missing)
    // the count follows the updates, and every update is for this scene
    ensures r.count - run.count == |r.state.updates| - |run.state.updates| <= 1
    ensures run.state.updates <= r.state.updates
    ensures forall p :: p in r.state.updates[|run.state.updates|..] ==> p.id == scene.id && p.url.None?
    ensures run.state.performers <= r.state.performers && run.state.tags <= r.state.tags
    ensures KeepsUnflagged(flags, run.state, r.state)
    ensures r.catalog == run.catalog
  {
    if scene.url.None? || scene.url.value == "" then run
    else
      var url := scene.url.value;
      var host := Netloc(url);
      if host in run.missing then run
      else
        var waited := Throttle(run, delay, clock);
        var asked := waited.(requests := waited.requests + [url]);
        match scrape(url)
        case None => asked.(missing := asked.missing + [host])
        case Some(d) =>
          if !HasData(d) then asked
          else
            var built := BuildPayload(flags, asked.state, scene.id, url, d);
            BuildPayloadKeeps(flags, asked.state, scene.id, url, d);
            asked.(state := UpdateScene(built.0, built.1), count := asked.count + 1)
  }

  /** The loop of `__bulk_scrape` over the tagged scenes, in order. */
  function ScrapeScenes(flags: Flags, delay: int, clock: Clock, scrape: string -> Option<ScrapedScene>,
                        run: Run, scenes: seq<Scene>): (r: Run)
    ensures r.count - run.count == |r.state.updates| - |run.state.updates| <= |scenes|
    ensures run.state.updates <= r.state.updates
    ensures forall p :: p in r.state.updates[|run.state.updates|..] ==>
      p.url.None? && exists sc :: sc in scenes && sc.id == p.id
    ensures run.missing <= r.missing
    ensures NoDuplicates(run.missing) ==> NoDuplicates(r.missing)
    ensures run.requests <= r.requests
    ensures forall u :: u in r.requests[|run.requests|..] ==> Netloc(u) !in run.missing
    ensures |r.sleeps| - |run.sleeps| == if delay == 0 then 0 else |r.requests| - |run.requests|
    ensures Paced(delay, clock, run.sleeps) ==> Paced(delay, clock, r.sleeps)
    ensures run.state.performers <= r.state.performers && run.state.tags <= r.state.tags
    ensures KeepsUnflagged(flags, run.state, r.state)
    ensures r.catalog == run.catalog
    decreases |scenes|
  {
    if |scenes| == 0 then run
    else
      var next := ScrapeStep(flags, delay, clock, scrape, run, scenes[0]);
      var r := ScrapeScenes(flags, delay, clock, scrape, next, scenes[1..]);
      ScrapeScenesTail(run, next, r, scenes);
      r
  }

  /** Glue for the inductive step of `ScrapeScenes`: what one step and the
      rest of the loop promise combine into the loop's promise. */
  lemma ScrapeScenesTail(run: Run, next: Run, r: Run, scenes: seq<Scene>)
    requires |scenes| > 0
    requires run.state.updates <= next.state.updates <= r.state.updates
    requires forall p :: p in next.state.updates[|run.state.updates|..] ==> p.id == scenes[0].id && p.url.None?
    requires forall p :: p in r.state.updates[|next.state.updates|..] ==>
      p.url.None? && exists sc :: sc in scenes[1..] && sc.id == p.id
    requires run.missing <= next.missing
    requires run.requests <= next.requests <= r.requests
    requires |next.requests| <= |run.requests| + 1
    requires |next.requests| == |run.requests| + 1 ==> Netloc(next.requests[|run.requests|]) !in run.missing
    requires forall u :: u in r.requests[|next.requests|..] ==> Netloc(u) !in next.missing
    ensures forall p :: p in r.state.updates[|run.state.updates|..] ==>
      p.url.None? && exists sc :: sc in scenes && sc.id == p.id
    ensures forall u :: u in r.requests[|run.requests|..] ==> Netloc(u) !in run.missing
  {
    var a := run.state.updates;
    var b := next.state.updates;
    var c := r.state.updates;
    assert c[|a|..] == b[|a|..] + c[|b|..];
    forall p | p in c[|a|..]
      ensures p.url.None? && exists sc :: sc in scenes && sc.id == p.id
    {
      if p in b[|a|..] {
        assert scenes[0] in scenes;
      } else {
        var sc :| sc in scenes[1..] && sc.id == p.id;
        assert sc in scenes;
      }
    }
    assert r.requests[|run.requests|..] == next.requests[|run.requests|..] + r.requests[|next.requests|..];
    forall u | u in r.requests[|run.requests|..]
      ensures Netloc(u) !in run.missing
    {
      if u !in r.requests[|next.requests|..] {
        assert u == next.requests[|run.requests|];
      } else {
        assert Netloc(u) !in next.missing;
      }
    }
  }

  // ---------------------------------------------------------------------
  // The loop, without the server
  // ---------------------------------------------------------------------

  /** What the loop decides from the scraper alone: the hosts it knows to
      have no scraper, the urls it asks for, and how many scenes it updates. */
  datatype Outcome = Outcome(missing: seq<string>, requests: seq<string>, updated: seq<Id>)

  /** The decision for one scene: a scene without url, or whose host is
      known to have no scraper, is passed over; any other scene is asked
      for; a null answer marks the host, an answer with data updates the
      scene. */
  function PlanStep(scrape: string -> Option<ScrapedScene>, missing: seq<string>, scene: Scene): (o: Outcome)
    ensures missing <= o.missing && |o.requests| <= 1 && |o.updated| <= 1
    ensures o.updated == [] || o.updated == [scene.id]
  {
    if scene.url.None? || scene.url.value == "" || Netloc(scene.url.value) in missing then
      Outcome(missing, [], [])
    else
      var url := scene.url.value;
      match scrape(url)
      case None => Outcome(missing + [Netloc(url)], [url], [])
      case Some(d) => Outcome(missing, [url], if HasData(d) then [scene.id] else [])
  }

  /** The decisions of the loop of `__bulk_scrape`, scene by scene, without
      the server. */
  function Plan(scrape: string -> Option<ScrapedScene>, missing: seq<string>, scenes: seq<Scene>): (o: Outcome)
    ensures missing <= o.missing
    ensures |o.updated| <= |scenes| && |o.requests| <= |scenes|
    decreases |scenes|
  {
    if |scenes| == 0 then Outcome(missing, [], [])
    else
      var first := PlanStep(scrape, missing, scenes[0]);
      var rest := Plan(scrape, first.missing, scenes[1..]);
      Outcome(rest.missing, first.requests + rest.requests, first.updated + rest.updated)
  }

  /** One step of the loop makes the decision of `PlanStep`, and a request
      that answers null has its host marked. */
  lemma ScrapeStepPlan(flags: Flags, delay: int, clock: Clock, scrape: string -> Option<ScrapedScene>,
                       run: Run, scene: Scene)
    ensures var r := ScrapeStep(flags, delay, clock, scrape, run, scene);
      var o := PlanStep(scrape, run.missing, scene);
      && r.missing == o.missing
      && r.requests == run.requests + o.requests
      && r.count == run.count + |o.updated|
      && UpdatedScenes(r.state.updates) == UpdatedScenes(run.state.updates) + o.updated
    ensures var r := ScrapeStep(flags, delay, clock, scrape, run, scene);
      |r.requests| == |run.requests| + 1 && scrape(r.requests[|run.requests|]).None? ==>
        Netloc(r.requests[|run.requests|]) in r.missing
  {
    if !Skipped(run, scene) && scrape(scene.url.value).Some? && HasData(scrape(scene.url.value).value) {
      var p := BuildPayload(flags, run.state, scene.id, scene.url.value, scrape(scene.url.value).value).1;
      assert p.id == scene.id;
      UpdatedScenesAppend(run.state.updates, [p]);
    }
  }

  /** The loop makes exactly the decisions of `Plan`: it marks the same
      hosts, asks for the same urls in the same order, and sends back one
      update, and counts one scene, for each scene `Plan` updates, in the
      same order. */
  lemma {:induction false} ScrapeScenesPlan(flags: Flags, delay: int, clock: Clock,
                                            scrape: string -> Option<ScrapedScene>, run: Run, scenes: seq<Scene>)
    ensures var r := ScrapeScenes(flags, delay, clock, scrape, run, scenes);
      var o := Plan(scrape, run.missing, scenes);
      && r.missing == o.missing
      && r.requests == run.requests + o.requests
      && r.count == run.count + |o.updated|
      && UpdatedScenes(r.state.updates) == UpdatedScenes(run.state.updates) + o.updated
    decreases |scenes|
  {
    if |scenes| > 0 {
      var next := ScrapeStep(flags, delay, clock, scrape, run, scenes[0]);
      var r := ScrapeScenes(flags, delay, clock, scrape, next, scenes[1..]);
      assert r == ScrapeScenes(flags, delay, clock, scrape, run, scenes);
      ScrapeStepPlan(flags, delay, clock, scrape, run, scenes[0]);
      ScrapeScenesPlan(flags, delay, clock, scrape, next, scenes[1..]);
      var first := PlanStep(scrape, run.missing, scenes[0]);
      var rest := Plan(scrape, first.missing, scenes[1..]);
      assert Plan(scrape, run.missing, scenes)
          == Outcome(rest.missing, first.requests + rest.requests, first.updated + rest.updated);
      AppendAssoc(run.requests, first.requests, rest.requests);
      AppendAssoc(UpdatedScenes(run.state.updates), first.updated, rest.updated);
    }
  }

  /** From position `from` on, no request goes to the host of an earlier
      request that answered null. */
  predicate NotAskedAfterNull(scrape: string -> Option<ScrapedScene>, requests: seq<string>, from: nat) {
    forall i, j :: from <= i < j < |requests| && scrape(requests[i]).None? ==>
      Netloc(requests[j]) != Netloc(requests[i])
  }

  /** Once a request for a host answers null, no later request of the run
      goes to that host. */
  lemma {:induction false} MarkedHostNotAskedAgain(flags: Flags, delay: int, clock: Clock,
                                                   scrape: string -> Option<ScrapedScene>, run: Run, scenes: seq<Scene>)
    ensures NotAskedAfterNull(scrape, ScrapeScenes(flags, delay, clock, scrape, run, scenes).requests, |run.requests|)
    decreases |scenes|
  {
    if |scenes| > 0 {
      var next := ScrapeStep(flags, delay, clock, scrape, run, scenes[0]);
      var r := ScrapeScenes(flags, delay, clock, scrape, next, scenes[1..]);
      assert r == ScrapeScenes(flags, delay, clock, scrape, run, scenes);
      ScrapeStepPlan(flags, delay, clock, scrape, run, scenes[0]);
      MarkedHostNotAskedAgain(flags, delay, clock, scrape, next, scenes[1..]);
      MarkedTail(scrape, run.requests, next.requests, r.requests, next.missing);
    }
  }

  /** Glue for the inductive step of `MarkedHostNotAskedAgain`, on the
      request lists alone. */
  lemma MarkedTail(scrape: string -> Option<ScrapedScene>, a: seq<string>, b: seq<string>, c: seq<string>,
                   marked: seq<string>)
    requires a <= b <= c && |b| <= |a| + 1
    requires |b| == |a| + 1 && scrape(b[|a|]).None? ==> Netloc(b[|a|]) in marked
    requires forall u :: u in c[|b|..] ==> Netloc(u) !in marked
    requires NotAskedAfterNull(scrape, c, |b|)
    ensures NotAskedAfterNull(scrape, c, |a|)
  {
    forall i, j | |a| <= i < j < |c| && scrape(c[i]).None?
      ensures Netloc(c[j]) != Netloc(c[i])
    {
      if i < |b| {
        assert c[i] == b[|a|];
        assert c[j] in c[|b|..];
      }
    }
  }
}
